=== FILE: README.md ===
# Marketplace signup, search-index and page-builder logic, in Dafny

This project models the decision logic of a marketplace web application built on
a Sharetribe-style template. The modelled parts are:

- **Signup wizard** (`signup.js`): ten steps, with role-dependent moves for Next
  and Back. Each step's Next button is gated on the form values, and the wizard
  can be walked forward and back.
- **Single-page signup form** (`SignupForm.js`): which inputs each role sees, and
  when the submit button is disabled.
- **Search-index service and HTTP controller** (`algoliaService.js`,
  `algoliaController.js`):
  - the service resolves the target index and shapes the client call;
  - the controller validates each request and answers 200, 400 or 500 in a
    `{success, ...}` envelope.
- **User-existence endpoint** (`get-authors.js`).
- **Featured-listings Redux duck**: its reducer, the published-listing filter and
  the favourite toggle thunk.
- **Authentication-page image duck**: its reducer and the `saveImage` thunk.
- **Page-builder pieces**:
  - the search call-to-action block: its filter grid, date formatting and the
    query parameters it submits;
  - the block builder: component choice, block ids, the fixed step buttons and
    their routes.
- **Desktop top bar**: which links and menus it shows before and after the client
  mounts, and which menu entry is marked current.

## JavaScript values

JavaScript values are modelled by `JsValue.Value`: `undefined`, `null`, booleans,
integers, strings, arrays and plain objects. The module defines the pieces of
JavaScript semantics the code relies on:

- truthiness and nullishness;
- optional chaining (`Get`) and a throwing property read (`Read`);
- object spread (`Spread`) and string conversion (`ToJsString`).

## External calls

Calls the code makes into libraries are parameters, or descriptors of the call
that would be issued:

- the Algolia client;
- the Sharetribe SDKs;
- `storableError`, `URL.createObjectURL` and `stringifyDateToISO8601`;
- route-string construction.

A rejected promise or a thrown exception is `Result.Throws`.

## Model

| member | source | states |
|---|---|---|
| SignupCommon.RoleOf | src/containers/AuthenticationPage/SignupForm/signup.js:187-216 | the `userType` comparisons select exactly one role branch; each named role iff `userType` is that role string |
| SignupCommon.SoleUserType | src/containers/AuthenticationPage/SignupForm/signup.js:48-49 | the only configured entry's type when exactly one is configured, `null` otherwise or when the configuration is not an array |
| SignupCommon.InitialUserType | src/containers/AuthenticationPage/SignupForm/signup.js:55 | the preselected type when truthy, else the sole configured type |
| SignupCommon.InitialUserTypeIsGiven | src/containers/AuthenticationPage/SignupForm/SignupForm.js:24-31 | the initial `userType` is the preselected one, a configured entry's type, or `null` |
| SignupCommon.CustomFieldsGate | src/containers/AuthenticationPage/SignupForm/SignupForm.js:112-136 | `showCustomUserFields` (with `noUserTypes`) holds iff custom fields exist and a type is selected, or no type is selected and none is configured |
| SignupWizard.Next | src/containers/AuthenticationPage/SignupForm/signup.js:187-199 | Next always moves forward within steps 1..10, and by at most two steps for every role except agents |
| SignupWizard.Back | src/containers/AuthenticationPage/SignupForm/signup.js:200-216 | Back always moves backward, never below step 1, and by at most two steps except for agents |
| SignupWizard.Path | src/containers/AuthenticationPage/SignupForm/signup.js:187-216 | each role's step sequence starts at step 1 and ends at step 10 |
| SignupWizard.NextFollowsPath | src/containers/AuthenticationPage/SignupForm/signup.js:187-199 | `handleNext` moves along the role's step sequence, one entry at a time |
| SignupWizard.BackUndoesNext | src/containers/AuthenticationPage/SignupForm/signup.js:200-216 | `handleBack` undoes `handleNext` at every step of every role's path |
| SignupWizard.SkippedSteps | src/containers/AuthenticationPage/SignupForm/signup.js:187-199 | buyers never see step 6, sellers never see step 9, agents see only steps 1 and 10, other roles see all ten |
| SignupWizard.ForwardWalksPath | src/containers/AuthenticationPage/SignupForm/signup.js:187-199 | pressing Next n times from step 1 reaches the n-th entry of the role's path |
| SignupWizard.BackwardWalksPath | src/containers/AuthenticationPage/SignupForm/signup.js:200-216 | pressing Back n times from path entry i reaches entry i - n |
| SignupWizard.ForwardThenBackRoundTrip | src/containers/AuthenticationPage/SignupForm/signup.js:187-216 | walking the whole path forward reaches step 10, and walking back as many times returns to step 1 |
| SignupWizard.GateIsRequirementTable | src/containers/AuthenticationPage/SignupForm/signup.js:250-710 | `NextDisabled`, the Next button's `disabled` expression of each step, holds exactly when one of the fields the role's step requires is unset |
| SignupWizard.GatesRoleIndependentOutside348 | src/containers/AuthenticationPage/SignupForm/signup.js:250-710 | outside steps 3, 4 and 8 every role faces the same requirements |
| SignupWizard.OtherRolesPass348 | src/containers/AuthenticationPage/SignupForm/signup.js:383-676 | the buyer- and seller-specific checks at steps 3, 4 and 8 never hold back any other role |
| SignupWizard.SubmitButtonState | src/containers/AuthenticationPage/SignupForm/signup.js:823-826 | the submit button is rendered exactly on step 10, disabled iff the form is invalid or a submit is in progress |
| SignupWizard.StepControls | src/containers/AuthenticationPage/SignupForm/signup.js:236-850 | steps 1..10 render controls and others render nothing; Back on all but step 1, Next on all but step 10, submit on step 10, agent fields only on step 10 for agents |
| SignupWizard.Advance | src/containers/AuthenticationPage/SignupForm/signup.js:187-199 | a Next click leaves the values alone and moves forward iff the step renders an enabled Next button |
| SignupWizard.Retreat | src/containers/AuthenticationPage/SignupForm/signup.js:200-216 | a Back click leaves the values alone and moves backward on steps 2..10, and changes nothing elsewhere |
| SignupWizard.InitialIsReachable | src/containers/AuthenticationPage/SignupForm/signup.js:48-55 | the initial state satisfies the wizard invariant: on the role's path, and on step 1 while no role is chosen |
| SignupWizard.AdvanceKeepsReachable | src/containers/AuthenticationPage/SignupForm/signup.js:187-199 | a Next click preserves the wizard invariant |
| SignupWizard.RetreatKeepsReachable | src/containers/AuthenticationPage/SignupForm/signup.js:200-216 | a Back click preserves the wizard invariant |
| SignupWizard.NoRoleStaysOnFirstStep | src/containers/AuthenticationPage/SignupForm/signup.js:250-258 | without a selected user type, Next on step 1 does nothing |
| SignupWizard.AdvanceNWalksPath | src/containers/AuthenticationPage/SignupForm/signup.js:187-199 | when every gate on the path passes, n Next clicks from step 1 reach the n-th path entry |
| SignupWizard.RetreatNWalksPath | src/containers/AuthenticationPage/SignupForm/signup.js:200-216 | n Back clicks from path entry i reach entry i - n |
| SignupWizard.FullWalkRoundTrip | src/containers/AuthenticationPage/SignupForm/signup.js:187-216 | with all gates passing, clicking through reaches step 10, and clicking back returns to step 1 with the values unchanged |
| SignupFormFields.RoleBlock | src/containers/AuthenticationPage/SignupForm/SignupForm.js:397-753 | every role block opens with company name and address and includes a phone number |
| SignupFormFields.RoleBlockFields | src/containers/AuthenticationPage/SignupForm/SignupForm.js:440-750 | installers get service regions, expertise and crew size twice but no yard locations; buyers alone get urgency and help; dealers alone get product, image, website and social links |
| SignupFormFields.RenderForm | src/containers/AuthenticationPage/SignupForm/SignupForm.js:134-768 | rendering throws iff the upload preview throws (a stored `imageId`, or a file still uploading) or the role block shows and an option list it maps over is missing; otherwise the default fields come first and the submit button comes last; between them sits exactly the role's block (company name, address, role fields, in order) when custom fields are shown, and nothing when they are not, disabled (`SubmitDisabled`) iff invalid or in progress |
| SignupFormFields.RenderedRoleFields | src/containers/AuthenticationPage/SignupForm/SignupForm.js:397-753 | in a rendered form the role decides crew-size count, service regions, yard locations, the company-address caption and the profile image |
| SignupFormFields.FormCrewSize | src/containers/AuthenticationPage/SignupForm/SignupForm.js:440-506 | the crew-size input appears twice for installers and never for other roles |
| SignupFormFields.FormServiceRegions | src/containers/AuthenticationPage/SignupForm/SignupForm.js:440-468 | service regions are rendered iff the role is installer |
| SignupFormFields.FormYardLocations | src/containers/AuthenticationPage/SignupForm/SignupForm.js:507-526 | yard locations are rendered iff the role is not installer |
| SignupFormFields.FormCompanyAddress | src/containers/AuthenticationPage/SignupForm/SignupForm.js:427 | the company-address caption is rendered iff the role is buyer |
| SignupFormFields.FormProfileImage | src/containers/AuthenticationPage/SignupForm/SignupForm.js:608-750 | the profile-image input is rendered iff the role is dealer |
| SignupFormFields.CompanyAddressOnlyForBuyers | src/containers/AuthenticationPage/SignupForm/SignupForm.js:427 | the address is captioned "company address" for buyers and "headquarter address" for every other role |
| AlgoliaService.GetIndex | server/api/services/algoliaService.js:16-20 | the given name when truthy, else the default index; throws the "Index name is required" error iff neither is set |
| AlgoliaService.OnIndex | server/api/services/algoliaService.js:23-59 | an operation rejects iff its index cannot be resolved, and otherwise issues its call on the resolved index |
| AlgoliaService.SaveObjectsOp | server/api/services/algoliaService.js:23-26 | `saveObjects` rejects iff the index is unresolved, and otherwise saves the given objects on the resolved index |
| AlgoliaService.GetObjectOp | server/api/services/algoliaService.js:28-31 | `getObject` rejects iff the index is unresolved, and otherwise fetches the given id from the resolved index |
| AlgoliaService.PartialUpdateObjectOp | server/api/services/algoliaService.js:33-37 | `partialUpdateObject` rejects iff the index is unresolved, and otherwise updates the resolved index with `{objectID, ...partial}`, never creating a missing record |
| AlgoliaService.DeleteObjectOp | server/api/services/algoliaService.js:39-42 | `deleteObject` rejects iff the index is unresolved, and otherwise deletes the given id from the resolved index |
| AlgoliaService.DeleteByOp | server/api/services/algoliaService.js:50-54 | `deleteBy` rejects iff the index is unresolved, and otherwise passes `{filters}` with the filter string as its only key |
| AlgoliaService.ClearIndexOp | server/api/services/algoliaService.js:56-59 | `clearIndex` rejects iff the index is unresolved, and otherwise clears the resolved index |
| AlgoliaService.PartialObject | server/api/services/algoliaService.js:33-37 | the update object has `objectID` plus every key of the partial object, whose values win |
| AlgoliaService.SearchOp | server/api/services/algoliaService.js:44-48 | search rejects iff the index is unresolved or params are missing; the query is `params.query` when truthy, else the empty string |
| AlgoliaService.ResolvesIndexFirst | server/api/services/algoliaService.js:16-59 | no operation issues a call when the index cannot be resolved, and each targets the resolved index otherwise |
| AlgoliaService.ForwardsArguments | server/api/services/algoliaService.js:23-59 | object ids, objects and filters reach the client unchanged, a partial update sends `{objectID, ...partial}` for any partial object, and partial updates never create missing objects |
| AlgoliaController.SafeRespond | server/api/controller/algoliaController.js:5-16 | a resolved call answers 200 `{success: true, data}`; any non-nullish rejection, of the service or of the client, answers 500 with its message when truthy and its string form otherwise; a nullish rejection leaves the request unanswered; only 200 carries `success: true` |
| AlgoliaController.PartialArg | server/api/controller/algoliaController.js:36-43 | the partial payload throws iff the body is missing, and is `body.partial` when set, else the whole body |
| AlgoliaController.SearchParams | server/api/controller/algoliaController.js:54-60 | the search parameters are every key of the body except `indexName` |
| AlgoliaController.Handle | server/api/controller/algoliaController.js:19-77 | only the partial update can throw, exactly when the body is missing; every 400 is a `success: false` envelope; every other outcome is what `safeRespond` makes of some service call |
| AlgoliaController.ResponseEnvelope | server/api/controller/algoliaController.js:5-77 | every response is a 200, 400 or 500 envelope whose `success` flag is true exactly for 200 |
| AlgoliaController.BadRequestIssuesNoCall | server/api/controller/algoliaController.js:19-77 | a 400 answer does not depend on the search client: validation happens before any call |
| AlgoliaController.Validation | server/api/controller/algoliaController.js:19-77 | each handler answers its own 400 message exactly when its required argument is missing; the partial update (given a body) exactly when the object id or the resolved partial payload is falsy |
| AlgoliaController.SafeRespondIsNot400 | server/api/controller/algoliaController.js:5-16 | `safeRespond` never produces a validation error response |
| AlgoliaController.SearchNeedsExplicitIndex | server/api/controller/algoliaController.js:54-60 | search without `indexName` answers 400 whatever the environment; with one it searches that index with the remaining body |
| AlgoliaController.HandlersDelegate | server/api/controller/algoliaController.js:19-68 | once validation passes, saveObjects, getObject, deleteObject and deleteBy each call the service operation of their own name: the body's `indexName` and `objects` or `filters`, or the query's `indexName` and the route's `objectID` |
| AlgoliaController.ClearIndexTarget | server/api/controller/algoliaController.js:70-77 | clearing targets the body's `indexName`, else `DEFAULT_INDEX`, passed explicitly to the service |
| AlgoliaController.PartialUpdatePayload | server/api/controller/algoliaController.js:36-43 | a missing body makes the handler throw; otherwise the update carries `body.partial` when truthy, and the whole body only when `partial` is `undefined` |
| UserExists.ExistsBody | server/api/user/get-authors.js:12-23 | the response body's `exists` flag and message agree |
| UserExists.UserFound | server/api/user/get-authors.js:9-10 | the lookup throws iff the response or its `data` is missing; the user exists iff `data.data.id` is truthy |
| UserExists.OnError | server/api/user/get-authors.js:16-30 | a 404 answers 200 "does not exist", any other error answers 500, and a nullish error throws unanswered |
| UserExists.CheckUserAlreadyExist | server/api/user/get-authors.js:5-31 | a request without a body is never answered; the only failure left unanswered is a type error; every answer is a 200 whose message agrees with its `exists` flag, or the 500 failure body |
| UserExists.OutcomeByLookup | server/api/user/get-authors.js:5-31 | the handler's answer for each way the lookup can go: found, not found, malformed response, or failed call |
| UserExists.AnswersAgree | server/api/user/get-authors.js:5-31 | every 200 answer's message agrees with its `exists` flag, and every other answer is the 500 failure body |
| FeaturedListingDuck.ResultIds | src/components/FeaturedListings/FeaturedListing.duck.js:25-30 | an id is kept iff some listing with it is neither deleted nor unpublished |
| FeaturedListingDuck.ResultIdsAppend | src/components/FeaturedListings/FeaturedListing.duck.js:25-30 | the filter distributes over concatenation |
| FeaturedListingDuck.ResultIdsAllShown | src/components/FeaturedListings/FeaturedListing.duck.js:25-30 | when every listing is published and not deleted, all ids are kept in order |
| FeaturedListingDuck.Reduce | src/components/FeaturedListings/FeaturedListing.duck.js:32-56 | fetch actions touch only the fetch fields and toggle actions only the toggle fields; a request clears its error, an error action stores its payload, a fetch success stores the shown ids; unknown actions change nothing |
| FeaturedListingDuck.FetchActions | src/components/FeaturedListings/FeaturedListing.duck.js:34-44 | an action is in the fetch-action subsequence iff it is a fetch action of the sequence |
| FeaturedListingDuck.ToggleActions | src/components/FeaturedListings/FeaturedListing.duck.js:46-51 | an action is in the toggle-action subsequence iff it is a toggle action of the sequence |
| FeaturedListingDuck.FetchActionsAppend | src/components/FeaturedListings/FeaturedListing.duck.js:34-44 | selecting fetch actions distributes over concatenation, so dispatch order is kept |
| FeaturedListingDuck.ToggleActionsAppend | src/components/FeaturedListings/FeaturedListing.duck.js:46-51 | selecting toggle actions distributes over concatenation, so dispatch order is kept |
| FeaturedListingDuck.InitialStateUntilFetched | src/components/FeaturedListings/FeaturedListing.duck.js:17-23 | from the initial state there are no featured ids until a fetch succeeds, and no fetch or toggle error until an error action arrives |
| FeaturedListingDuck.SlicesIndependent | src/components/FeaturedListings/FeaturedListing.duck.js:32-56 | the fetch fields depend only on fetch actions and the toggle fields only on toggle actions, whatever the interleaving |
| FeaturedListingDuck.LastFetch | src/components/FeaturedListings/FeaturedListing.duck.js:34-44 | there is no last fetch action iff the sequence has no fetch action; otherwise it is a fetch action of the sequence after which no fetch action follows |
| FeaturedListingDuck.FetchTracksLastAction | src/components/FeaturedListings/FeaturedListing.duck.js:34-44 | `fetchInProgress` is true iff the last fetch action was a request; the featured ids are those of the last fetch when it succeeded, and the error that of the last fetch when it failed |
| FeaturedListingDuck.Dedupe | src/components/FeaturedListings/FeaturedListing.duck.js:122 | `Array.from(new Set(...))` has no duplicates and the same members as its input |
| FeaturedListingDuck.DedupeKeepsFirstOrder | src/components/FeaturedListings/FeaturedListing.duck.js:122 | the set keeps elements in order of first occurrence |
| FeaturedListingDuck.DedupeNoDup | src/components/FeaturedListings/FeaturedListing.duck.js:122 | a duplicate-free list passes through the set unchanged |
| FeaturedListingDuck.AddFavorite | src/components/FeaturedListings/FeaturedListing.duck.js:120-122 | adding gives a duplicate-free list holding the old favourites and the new id |
| FeaturedListingDuck.AddFavoriteAppendsIfNew | src/components/FeaturedListings/FeaturedListing.duck.js:120-122 | adding to a duplicate-free list appends a new id at the end and leaves it alone when present |
| FeaturedListingDuck.RemoveFavorite | src/components/FeaturedListings/FeaturedListing.duck.js:123-125 | removing drops every copy of the id and keeps every other id with its multiplicity |
| FeaturedListingDuck.RemoveFavoriteAppend | src/components/FeaturedListings/FeaturedListing.duck.js:123-125 | removal distributes over concatenation |
| FeaturedListingDuck.RemoveAbsent | src/components/FeaturedListings/FeaturedListing.duck.js:123-125 | removing an id that is not a favourite changes nothing |
| FeaturedListingDuck.AddThenRemove | src/components/FeaturedListings/FeaturedListing.duck.js:120-125 | adding a new id and then removing it restores a duplicate-free favourite list |
| FeaturedListingDuck.ExistingFavorites | src/components/FeaturedListings/FeaturedListing.duck.js:117 | the stored favourites, or the empty list when unset |
| FeaturedListingDuck.ToggleFavoriteStart | src/components/FeaturedListings/FeaturedListing.duck.js:104-134 | without a user, a request then an error and a rejection; with one, a request then a profile update carrying the added or removed favourites |
| FeaturedListingDuck.ToggleFavoriteFinish | src/components/FeaturedListings/FeaturedListing.duck.js:129-145 | a successful update dispatches success; a failed one dispatches exactly the stored error; an error is dispatched iff the update or the refetch of the current user fails, and a failed refetch dispatches its error last |
| FeaturedListingDuck.ReduceRejectedToggle | src/components/FeaturedListings/FeaturedListing.duck.js:46-51 | a request followed by an error leaves the toggle idle with that error |
| FeaturedListingDuck.ReduceSettledToggle | src/components/FeaturedListings/FeaturedListing.duck.js:129-145 | after the profile update and the refetch settle, the toggle is idle, with the update's stored error, else the refetch's, else none |
| FeaturedListingDuck.ToggleFavoriteSettles | src/components/FeaturedListings/FeaturedListing.duck.js:104-146 | every run of the toggle thunk leaves `toggleFavInProgress` false, records the error of the missing user, the update or the refetch, and leaves the fetch fields untouched |
| AuthPageDuck.UploadImageSuccess | src/containers/AuthenticationPage/AuthenticationPage.duck.js:22 | the success action's payload is `result.data`; building it throws a type error iff the result is nullish |
| AuthPageDuck.SuccessStoresResultData | src/containers/AuthenticationPage/AuthenticationPage.duck.js:41-43 | dispatching the success action stores `result.data.data` as the image and `result.data.previewUrl` as the preview and ends the upload, and throws when the result has no `data` |
| AuthPageDuck.UploadImageRequest | src/containers/AuthenticationPage/AuthenticationPage.duck.js:21 | the request action always carries a payload holding the given params |
| AuthPageDuck.UploadImageError | src/containers/AuthenticationPage/AuthenticationPage.duck.js:23-27 | the error action's payload is the argument itself, so it is missing exactly when no argument is given |
| AuthPageDuck.Reduce | src/containers/AuthenticationPage/AuthenticationPage.duck.js:30-53 | upload actions with a nullish payload throw; request, success, error and remove set their fields; `updateInProgress` is never changed |
| AuthPageDuck.UpdateFlagUntouched | src/containers/AuthenticationPage/AuthenticationPage.duck.js:30-53 | no sequence of image actions changes `updateInProgress` |
| AuthPageDuck.InitialStateNeverUpdating | src/containers/AuthenticationPage/AuthenticationPage.duck.js:13-19 | a store that starts from the initial state never has an update in progress |
| AuthPageDuck.RequestThenErrorStoresError | src/containers/AuthenticationPage/AuthenticationPage.duck.js:21-46 | a request followed by an error leaves no image, no preview and no upload in progress, with exactly the given error stored |
| AuthPageDuck.SaveImage | src/containers/AuthenticationPage/AuthenticationPage.duck.js:56-64 | a request and then a success, or a request and then an error; success iff the payload is present and the object URL is created |
| AuthPageDuck.SaveImageOutcome | src/containers/AuthenticationPage/AuthenticationPage.duck.js:56-64 | after `saveImage` the upload is no longer in progress, with the preview URL on success and the stored error on failure |
| SearchCta.GetGridCount | src/containers/PageBuilder/Primitives/SearchCTA/SearchCTA.js:26-36 | the column count is the field count for 1 to 4 fields, and 1 otherwise |
| SearchCta.IsEmpty | src/containers/PageBuilder/Primitives/SearchCTA/SearchCTA.js:38-41 | a value is empty iff it is nullish, the empty string, the empty array, or an object whose own `length` is 0 |
| SearchCta.FormatDateValue | src/containers/PageBuilder/Primitives/SearchCTA/SearchCTA.js:43-50 | the object has only the requested key; its value is `"start,end"` iff both dates format to non-empty strings, and `null` otherwise |
| SearchCta.SplitAtComma | src/containers/PageBuilder/Primitives/SearchCTA/SearchCTA.js:43-50 | the reference reader of `"start,end"`: splits at the first comma |
| SearchCta.DateRangeRoundTrip | src/containers/PageBuilder/Primitives/SearchCTA/SearchCTA.js:43-50 | two comma-free dates joined with a comma split back into the same dates |
| SearchCta.FormattedDatesReadBack | src/containers/PageBuilder/Primitives/SearchCTA/SearchCTA.js:43-50 | a formatted date range reads back as its two formatted dates |
| SearchCta.ActiveKeys | src/containers/PageBuilder/Primitives/SearchCTA/SearchCTA.js:103-117 | the keys that render are exactly the requested keys whose filter is enabled and valid |
| SearchCta.ActiveKeysAppend | src/containers/PageBuilder/Primitives/SearchCTA/SearchCTA.js:103-117 | filtering keys distributes over concatenation |
| SearchCta.AddFilters | src/containers/PageBuilder/Primitives/SearchCTA/SearchCTA.js:103-117 | one rendered filter per active key, in order |
| SearchCta.AlignLeftExceptLast | src/containers/PageBuilder/Primitives/SearchCTA/SearchCTA.js:103-117 | every rendered filter but the last is aligned left, and a lone filter is aligned left too |
| SearchCta.FieldCountForGrid | src/containers/PageBuilder/Primitives/SearchCTA/SearchCTA.js:120-121 | at most four filters are enabled and valid |
| SearchCta.GridCountsRenderedFilters | src/containers/PageBuilder/Primitives/SearchCTA/SearchCTA.js:120-173 | the grid counts exactly the filters the form renders |
| SearchCta.Render | src/containers/PageBuilder/Primitives/SearchCTA/SearchCTA.js:120-175 | the block renders nothing iff no filter is active; otherwise it has as many columns as filters, at most 4 |
| SearchCta.Contribute | src/containers/PageBuilder/Primitives/SearchCTA/SearchCTA.js:132-152 | an empty value adds nothing, and an ordinary field is copied as is; a date range sets `dates` to `"start,end"` when both dates stringify non-empty and to `null` otherwise; a location with a selected place sets `bounds` and `address`, and `origin` as `"lat,lng"` only when origin search is on and the place has one, and without a place adds nothing; every parameter the entry does not write keeps its value |
| SearchCta.CompleteDateRangeQuery | src/containers/PageBuilder/Primitives/SearchCTA/SearchCTA.js:132-136 | in a form with distinct keys and no field of its own named `dates`, a complete date range reaches the query as `"start,end"`, and the two dates read back from it when they hold no comma |
| SearchCta.QueryParams | src/containers/PageBuilder/Primitives/SearchCTA/SearchCTA.js:128-154 | the query parameters hold only ordinary form keys, `dates`, `bounds`, `address` and `origin`; no entries give no parameters |
| SearchCta.QueryKeysComeFromForm | src/containers/PageBuilder/Primitives/SearchCTA/SearchCTA.js:128-159 | every query parameter comes from a form field, and `origin` only when origin search is on |
| SearchCta.OrdinaryFieldCopied | src/containers/PageBuilder/Primitives/SearchCTA/SearchCTA.js:150-152 | an ordinary field no other field writes over is in the query iff it is non-empty, with its own value |
| SearchCta.IncompleteDateRange | src/containers/PageBuilder/Primitives/SearchCTA/SearchCTA.js:134-136 | a date range missing its start or its end date still sets `dates`, to `null` |
| SearchCta.LocationParams | src/containers/PageBuilder/Primitives/SearchCTA/SearchCTA.js:137-149 | a location adds nothing without a selected place, else bounds and address, and origin iff origin search is on and the place has one |
| BlockBuilder.HandleButtonClick | src/containers/PageBuilder/BlockBuilder/BlockBuilder.js:86-125 | signed-out visitors always go to signup; signed-in ones go to the page each action names, and to `/` for any other action |
| BlockBuilder.MergeComponents | src/containers/PageBuilder/BlockBuilder/BlockBuilder.js:130 | the caller's block components override the defaults key by key |
| BlockBuilder.BlockId | src/containers/PageBuilder/BlockBuilder/BlockBuilder.js:137 | the block's own id when truthy, else `<sectionId>-block-<index + 1>` |
| BlockBuilder.DefaultIdsDistinct | src/containers/PageBuilder/BlockBuilder/BlockBuilder.js:137 | blocks without their own id get distinct ids within a section |
| BlockBuilder.BlockOptionsMaybe | src/containers/PageBuilder/BlockBuilder/BlockBuilder.js:75-78 | the `options` prop is passed iff field components are given |
| BlockBuilder.RenderBlock | src/containers/PageBuilder/BlockBuilder/BlockBuilder.js:134-171 | a missing block throws a type error; otherwise the two "three steps" ids render their fixed button groups; any other block renders `components[blockType].component` when it is truthy and nothing otherwise; the component gets the block's properties, `blockId` with the resolved id, `options` when field components are given, and the other props, later ones winning |
| BlockBuilder.UnknownTypeRendersNothing | src/containers/PageBuilder/BlockBuilder/BlockBuilder.js:134-170 | a block whose type has no component renders nothing, unless its id selects a button group; a missing block throws |
| BlockBuilder.StepButtonsRoute | src/containers/PageBuilder/BlockBuilder/BlockBuilder.js:96-153 | for a signed-in visitor every fixed step button leads to a page of its own, never to `/` |
| BlockBuilder.BuildBlocks | src/containers/PageBuilder/BlockBuilder/BlockBuilder.js:67-171 | nothing is rendered iff `blocks` is missing or empty; it throws iff `blocks` is set but not an array or holds a missing block; otherwise one rendering per block |
| BlockBuilder.RenderAll | src/containers/PageBuilder/BlockBuilder/BlockBuilder.js:134-171 | the map throws iff some block is missing; otherwise each block is rendered at its own index |
| BlockBuilder.BuildBlocksUsesComponent | src/containers/PageBuilder/BlockBuilder/BlockBuilder.js:130-163 | in a block list without missing entries, a block that is not a step button renders the caller's component for its type when given, the default one otherwise, and nothing when that entry has no component; the rendering gets the block's id and, with field components, `options` |
| BlockBuilder.BuildBlocksRendersEach | src/containers/PageBuilder/BlockBuilder/BlockBuilder.js:130-171 | an array of blocks renders iff none is missing, each with the merged components and the given field components |
| TopbarDesktop.NotificationDot | src/containers/TopbarContainer/Topbar/TopbarDesktop/TopbarDesktop.js:53-54 | the inbox shows a dot iff the notification count is given and positive |
| TopbarDesktop.ProfileMenuEntries | src/containers/TopbarContainer/Topbar/TopbarDesktop/TopbarDesktop.js:65-116 | the manage-listings entry comes first iff listings may be created; then the profile-settings and account-settings entries, and logout last; each entry is marked current by `currentPageClass` |
| TopbarDesktop.NotLoggedInEntries | src/containers/TopbarContainer/Topbar/TopbarDesktop/TopbarDesktop.js:117-151 | the anonymous menu, rendered without a current page, never marks an entry current |
| TopbarDesktop.View | src/containers/TopbarContainer/Topbar/TopbarDesktop/TopbarDesktop.js:247-265 | the logo comes first and the create-listing link is always shown |
| TopbarDesktop.SearchSlot | src/containers/TopbarContainer/Topbar/TopbarDesktop/TopbarDesktop.js:203-245 | the slot after the logo is the search form when enabled, taking the free space iff there are no custom links (`null`/`undefined` or length 0); otherwise the custom links, ready once mounted |
| TopbarDesktop.VisibilityTable | src/containers/TopbarContainer/Topbar/TopbarDesktop/TopbarDesktop.js:200-220 | inbox and profile menu iff mounted and signed in, the anonymous menu otherwise, signup iff mounted and signed out |
| TopbarDesktop.ClientSideContentReadyIsMounted | src/containers/TopbarContainer/Topbar/TopbarDesktop/TopbarDesktop.js:200-241 | the custom links are told the content is ready exactly when the client has mounted |
| TopbarDesktop.FirstRenderIsNeutral | src/containers/TopbarContainer/Topbar/TopbarDesktop/TopbarDesktop.js:193-221 | before mounting, the bar shows the logo, the search slot, the create-listing link and the anonymous menu, and nothing else |
| TopbarDesktop.CurrentMeansPage | src/containers/TopbarContainer/Topbar/TopbarDesktop/TopbarDesktop.js:66-70 | `IsCurrent`: a menu entry is current iff it is the current page, or it is account settings and the current page is one of its sub-pages |
| TopbarDesktop.AtMostOneCurrentEntry | src/containers/TopbarContainer/Topbar/TopbarDesktop/TopbarDesktop.js:65-116 | unless the account-settings sub-pages include the other menu pages, at most one profile-menu entry is current |

## Left out

- Rendering: JSX markup, CSS class names, translated messages, icons and the
  layout of each step are not modelled. The models keep only what is shown and
  in which order.
- Role constants: `BUYER`, `SELLER`, `AGENT`, `DEALER` and `INSTALLER` come from
  `util/types`, which is not part of this model. They are taken to be the
  lower-case role names that step 4 of the wizard compares against.
- `userType`: assumed to be a string or nullish. The loose `==` comparisons of
  `handleBack` and of the form are modelled as strict equality.
- Numbers: modelled as integers. NaN, floating point and numeric strings compared
  with `>` are not modelled.
- Form values of the wizard gates: modelled as a map from field name to value.
- Signup form image upload: the upload preview of `SignupForm.js` is modelled
  only as far as it decides whether rendering throws. A stored `imageId` reads
  `this.state` in a function component, and a file still uploading reads
  `errorClasses` before its declaration. The preview markup is not modelled.
- Wizard step: `step` and `setStep` are render props owned by the parent form
  (`signup.js:72-73`). The model assumes the parent starts at step 1 and
  changes the step only through Next and Back.
- Custom user fields: `getPropsForCustomUserFieldInputs` is a parameter. Only the
  number of props it returns and the option keys matter.
- External calls: the Algolia client, the Sharetribe SDK calls
  (`users.show`, `currentUser.updateProfile`, `listings.query`),
  `storableError`, `URL.createObjectURL`, `stringifyDateToISO8601`,
  `createResourceLocatorString` and `history.push`. These are parameters or
  call descriptors. Their effects and timing are not modelled.
- Async behaviour: promise chaining is flattened to one settled result per call.
  `addMarketplaceEntities` is recorded as an action. The `fetchCurrentUser`
  dispatch after a successful favourite toggle is a parameter giving its
  outcome. The user slice's own actions are not listed, since the featured
  reducer ignores them.
- `fetchFeaturedListings` and `uploadProfileImage`: the thunks are not modelled
  beyond the actions they dispatch. Their reducer cases are modelled.
- Error strings: `String(error)` for a rejection without a message gives
  `[object Object]` for plain objects. `Error.prototype.toString` and custom
  `toString` methods are not modelled.
- Favourites: a stored favourites value that is set but not an array is not
  modelled. Favourite ids are strings.
- `ACCOUNT_SETTINGS_PAGES`: comes from the route configuration, which is not
  part of this model, so it is a parameter.
- Configuration: the marketplace configuration objects are assumed present.
  `SearchCTA.js:61,66` reads `config.categoryConfiguration.categories.length`
  once categories are enabled, and `TopbarDesktop.js:199` reads
  `config.marketplaceName`. Both would throw on a missing object. The model
  takes the category count as a number and has no top bar configuration.
- Logging: `console.error` in `safeRespond` (`algoliaController.js:10`) and in
  the user check (`get-authors.js:25`), and the `console.warn` for an unknown
  block type (`BlockBuilder.js:166`), are left out. They only write to the
  console and change no response or rendering.
- Top bar search form and custom-links menu: their contents are not modelled.
- Top bar login link: never modelled, since the source leaves it commented out
  at `TopbarDesktop.js:263`.
- Environment variables: the controller's clear-index fallback reads
  `DEFAULT_INDEX`, while the service's fallback reads `ALGOLIA_DEFAULT_INDEX`
  (and its error message names `DEFAULT_INDEX`). Both are modelled as written,
  as separate fields of the environment.

=== FILE: algolia_controller.dfy ===
/**
 The HTTP handlers in front of the search-index service: each validates its
 request, answers 400 on a missing argument, and otherwise hands the service's
 promise to `safeRespond`, which answers 200 with the data or 500 with the
 error message. The search client's answer to a call is a parameter.
 */
module AlgoliaController {
  import opened JsValue
  import opened AlgoliaService

  /** The parts of an Express request the handlers read. */
  datatype Request = Request(body: Value, query: map<string, Value>, params: map<string, Value>)

  /** The process environment: the controller and the service read different variables. */
  datatype Env = Env(defaultIndex: Value, algoliaDefaultIndex: Value)

  function ServiceEnvOf(env: Env): ServiceEnv {
    ServiceEnv(env.algoliaDefaultIndex)
  }

  /**
   What became of a request: an HTTP response, an exception thrown by the
   handler itself, or a rejection `safeRespond` failed to answer.
   */
  datatype Outcome =
    | Respond(status: int, body: Value)
    | Crash(thrown: Value)
    | Unanswered(thrown: Value)

  datatype Endpoint = SaveObjectsEp | GetObjectEp | PartialUpdateEp | DeleteObjectEp | SearchEp | DeleteByEp | ClearIndexEp

  const OBJECTS_NOT_ARRAY := "objects must be an array"
  const OBJECT_ID_REQUIRED := "objectID required"
  const PARTIAL_REQUIRED := "objectID and partial data required"
  const INDEX_NAME_REQUIRED := "indexName required"
  const FILTERS_REQUIRED := "filters required for deleteBy"

  /** `{success, error}` or `{success, data}`. */
  function Envelope(success: bool, key: string, v: Value): (r: Value)
    requires key != "success"
    ensures r.Obj? && Get(r, "success") == Bool(success) && Get(r, key) == v
  {
    Obj(map["success" := Bool(success), key := v])
  }

  function BadRequest(message: string): (r: Outcome)
    ensures r.Respond? && r.status == 400 && Get(r.body, "error") == Str(message)
  {
    Respond(400, Envelope(false, "error", Str(message)))
  }

  /** What the service's promise settles to: the rejection of the operation itself, or the client's answer to its call. */
  function Settle(call: Result<IndexCall>, client: IndexCall -> Result<Value>): (r: Result<Value>)
    ensures call.Throws? ==> r == Throws(call.thrown)
    ensures call.Ok? ==> r == client(call.value)
  {
    match call
    case Ok(c) => client(c)
    case Throws(e) => Throws(e)
  }

  /**
   `safeRespond(res, promise)`: 200 `{success: true, data}` when the service
   call resolves, 500 `{success: false, error}` with the error's message, or
   its string form, when it rejects. A rejection with `null` or `undefined`
   makes the handler itself throw, and no response is sent.
   */
  function SafeRespond(call: Result<IndexCall>, client: IndexCall -> Result<Value>): (r: Outcome)
    ensures r.Respond? ==> (r.status == 200 || r.status == 500)
    ensures r.Respond? ==> Get(r.body, "success") == Bool(r.status == 200)
    ensures call.Ok? && client(call.value).Ok? ==> r == Respond(200, Envelope(true, "data", client(call.value).value))
    ensures call.Throws? && !Nullish(call.thrown) && Truthy(Get(call.thrown, "message")) ==>
              r == Respond(500, Envelope(false, "error", Get(call.thrown, "message")))
    ensures var s := Settle(call, client);
            s.Throws? && !Nullish(s.thrown) ==>
              r == Respond(500, Envelope(false, "error",
                                         if Truthy(Get(s.thrown, "message")) then Get(s.thrown, "message")
                                         else Str(ToJsString(s.thrown))))
    ensures var s := Settle(call, client);
            s.Throws? && Nullish(s.thrown) ==> r == Unanswered(TYPE_ERROR)
  {
    match Settle(call, client)
    case Ok(data) => Respond(200, Envelope(true, "data", data))
    case Throws(err) =>
      if Nullish(err) then Unanswered(TYPE_ERROR)
      else
        var message := Get(err, "message");
        Respond(500, Envelope(false, "error", if Truthy(message) then message else Str(ToJsString(err))))
  }

  /** `map[k]`, or `undefined` when the key is missing. */
  function Lookup(m: map<string, Value>, k: string): Value {
    if k in m then m[k] else Undefined
  }

  /** `partial = req.body.partial || req.body`, only evaluated when the destructured `partial` is `undefined`. */
  function PartialArg(body: Value): (r: Result<Value>)
    ensures r.Throws? <==> Nullish(body)
    ensures r.Ok? && Get(body, "partial") != Undefined ==> r.value == Get(body, "partial")
    ensures r.Ok? && Get(body, "partial") == Undefined ==> r.value == body
  {
    var destructured := Get(OrEmpty(body), "partial");
    if destructured != Undefined then Ok(destructured)
    else
      match Read(body, "partial")
      case Throws(e) => Throws(e)
      case Ok(p) => Ok(if Truthy(p) then p else body)
  }

  /** `{indexName, ...params}`: every own property of the body except `indexName`. */
  function SearchParams(source: Value): (m: map<string, Value>)
    ensures "indexName" !in m
    ensures forall k :: k in m <==> k in Spread(source) && k != "indexName"
  {
    Spread(source) - {"indexName"}
  }

  /**
   The handler of `endpoint` for `req`. Only the partial update can throw
   itself, on a request without a body; every other outcome is a 400 from
   validation or whatever `safeRespond` makes of the service call.
   */
  function Handle(endpoint: Endpoint, req: Request, env: Env, client: IndexCall -> Result<Value>): (r: Outcome)
    ensures r.Crash? <==> endpoint == PartialUpdateEp && Nullish(req.body)
    ensures r.Crash? ==> r.thrown == TYPE_ERROR
    ensures r.Respond? && r.status == 400 ==> Get(r.body, "success") == Bool(false)
    ensures !r.Crash? && !(r.Respond? && r.status == 400) ==> exists call :: r == SafeRespond(call, client)
  {
    var source := OrEmpty(req.body);
    var senv := ServiceEnvOf(env);
    match endpoint
    case SaveObjectsEp =>
      var objects := Get(source, "objects");
      if !objects.Arr? then BadRequest(OBJECTS_NOT_ARRAY)
      else SafeRespond(SaveObjectsOp(Get(source, "indexName"), objects, senv), client)
    case GetObjectEp =>
      var objectID := Lookup(req.params, "objectID");
      if !Truthy(objectID) then BadRequest(OBJECT_ID_REQUIRED)
      else SafeRespond(GetObjectOp(Lookup(req.query, "indexName"), objectID, senv), client)
    case PartialUpdateEp =>
      (match PartialArg(req.body)
       case Throws(e) => Crash(e)
       case Ok(partial) =>
         var objectID := Lookup(req.params, "objectID");
         if !Truthy(objectID) || !Truthy(partial) then BadRequest(PARTIAL_REQUIRED)
         else SafeRespond(PartialUpdateObjectOp(Get(source, "indexName"), objectID, partial, senv), client))
    case DeleteObjectEp =>
      var objectID := Lookup(req.params, "objectID");
      if !Truthy(objectID) then BadRequest(OBJECT_ID_REQUIRED)
      else SafeRespond(DeleteObjectOp(Lookup(req.query, "indexName"), objectID, senv), client)
    case SearchEp =>
      var indexName := Get(source, "indexName");
      if !Truthy(indexName) then BadRequest(INDEX_NAME_REQUIRED)
      else SafeRespond(SearchOp(indexName, Obj(SearchParams(source)), senv), client)
    case DeleteByEp =>
      var filters := Get(source, "filters");
      if !Truthy(filters) then BadRequest(FILTERS_REQUIRED)
      else SafeRespond(DeleteByOp(Get(source, "indexName"), filters, senv), client)
    case ClearIndexEp =>
      var indexName := Get(source, "indexName");
      var target := if Truthy(indexName) then indexName else env.defaultIndex;
      if !Truthy(target) then BadRequest(INDEX_NAME_REQUIRED)
      else SafeRespond(ClearIndexOp(target, senv), client)
  }

  /**
   Every response any handler sends is a 200, 400 or 500 envelope whose
   `success` flag is true exactly for 200.
   */
  lemma ResponseEnvelope(endpoint: Endpoint, req: Request, env: Env, client: IndexCall -> Result<Value>)
    ensures var r := Handle(endpoint, req, env, client);
            r.Respond? ==>
              (r.status == 200 || r.status == 400 || r.status == 500)
              && Get(r.body, "success") == Bool(r.status == 200)
  {
  }

  /** A 400 is decided before any service call: the client's behaviour cannot change it. */
  lemma BadRequestIssuesNoCall(endpoint: Endpoint, req: Request, env: Env,
                               client: IndexCall -> Result<Value>, other: IndexCall -> Result<Value>)
    requires Handle(endpoint, req, env, client).Respond? && Handle(endpoint, req, env, client).status == 400
    ensures Handle(endpoint, req, env, other) == Handle(endpoint, req, env, client)
  {
  }

  /** Which requests each handler turns away with 400, and with which message. */
  lemma Validation(req: Request, env: Env, client: IndexCall -> Result<Value>)
    ensures var source := OrEmpty(req.body);
            && (Handle(SaveObjectsEp, req, env, client) == BadRequest(OBJECTS_NOT_ARRAY)
                <==> !Get(source, "objects").Arr?)
            && (Handle(GetObjectEp, req, env, client) == BadRequest(OBJECT_ID_REQUIRED)
                <==> !Truthy(Lookup(req.params, "objectID")))
            && (Handle(DeleteObjectEp, req, env, client) == BadRequest(OBJECT_ID_REQUIRED)
                <==> !Truthy(Lookup(req.params, "objectID")))
            && (Handle(SearchEp, req, env, client) == BadRequest(INDEX_NAME_REQUIRED)
                <==> !Truthy(Get(source, "indexName")))
            && (Handle(DeleteByEp, req, env, client) == BadRequest(FILTERS_REQUIRED)
                <==> !Truthy(Get(source, "filters")))
            && (Handle(ClearIndexEp, req, env, client) == BadRequest(INDEX_NAME_REQUIRED)
                <==> !Truthy(Get(source, "indexName")) && !Truthy(env.defaultIndex))
            && (!Nullish(req.body) ==>
                  (Handle(PartialUpdateEp, req, env, client) == BadRequest(PARTIAL_REQUIRED)
                   <==> !Truthy(Lookup(req.params, "objectID")) || !Truthy(PartialArg(req.body).value)))
  {
    ObjectValidation(req, env, client);
    SearchValidation(req, env, client);
    DeleteByValidation(req, env, client);
    ClearIndexValidation(req, env, client);
    if !Nullish(req.body) {
      PartialValidation(req, env, client);
    }
  }

  /** The 400s of the handlers that take an object or an object id. */
  lemma ObjectValidation(req: Request, env: Env, client: IndexCall -> Result<Value>)
    ensures (Handle(SaveObjectsEp, req, env, client) == BadRequest(OBJECTS_NOT_ARRAY)
             <==> !Get(OrEmpty(req.body), "objects").Arr?)
    ensures (Handle(GetObjectEp, req, env, client) == BadRequest(OBJECT_ID_REQUIRED)
             <==> !Truthy(Lookup(req.params, "objectID")))
    ensures (Handle(DeleteObjectEp, req, env, client) == BadRequest(OBJECT_ID_REQUIRED)
             <==> !Truthy(Lookup(req.params, "objectID")))
  {
    SafeRespondIsNot400(req, env, client);
  }

  /** The 400 of search. */
  lemma SearchValidation(req: Request, env: Env, client: IndexCall -> Result<Value>)
    ensures Handle(SearchEp, req, env, client) == BadRequest(INDEX_NAME_REQUIRED)
            <==> !Truthy(Get(OrEmpty(req.body), "indexName"))
  {
    SafeRespondIsNot400(req, env, client);
  }

  /** The 400 of delete-by. */
  lemma DeleteByValidation(req: Request, env: Env, client: IndexCall -> Result<Value>)
    ensures Handle(DeleteByEp, req, env, client) == BadRequest(FILTERS_REQUIRED)
            <==> !Truthy(Get(OrEmpty(req.body), "filters"))
  {
    SafeRespondIsNot400(req, env, client);
  }

  /** The 400 of clear-index. */
  lemma ClearIndexValidation(req: Request, env: Env, client: IndexCall -> Result<Value>)
    ensures Handle(ClearIndexEp, req, env, client) == BadRequest(INDEX_NAME_REQUIRED)
            <==> !Truthy(Get(OrEmpty(req.body), "indexName")) && !Truthy(env.defaultIndex)
  {
    SafeRespondIsNot400(req, env, client);
  }

  /** The 400 of the partial update, for a request with a body. */
  lemma PartialValidation(req: Request, env: Env, client: IndexCall -> Result<Value>)
    requires !Nullish(req.body)
    ensures Handle(PartialUpdateEp, req, env, client) == BadRequest(PARTIAL_REQUIRED)
            <==> !Truthy(Lookup(req.params, "objectID")) || !Truthy(PartialArg(req.body).value)
  {
    SafeRespondIsNot400(req, env, client);
  }

  /** `safeRespond` never answers 400, so every 400 comes from validation. */
  lemma SafeRespondIsNot400(req: Request, env: Env, client: IndexCall -> Result<Value>)
    ensures forall call :: SafeRespond(call, client) != BadRequest(OBJECTS_NOT_ARRAY)
    ensures forall call :: SafeRespond(call, client) != BadRequest(OBJECT_ID_REQUIRED)
    ensures forall call :: SafeRespond(call, client) != BadRequest(INDEX_NAME_REQUIRED)
    ensures forall call :: SafeRespond(call, client) != BadRequest(FILTERS_REQUIRED)
    ensures forall call :: SafeRespond(call, client) != BadRequest(PARTIAL_REQUIRED)
  {
  }

  /**
   Once validation passes, saving, reading, deleting an object and deleting
   by filter each hand `safeRespond` the service operation of their own name,
   with the index name and arguments taken from where the handler reads them:
   the body for saving and delete-by, the query string and the route for the
   object id otherwise.
   */
  lemma HandlersDelegate(req: Request, env: Env, client: IndexCall -> Result<Value>)
    ensures var source := OrEmpty(req.body);
            Get(source, "objects").Arr? ==>
              Handle(SaveObjectsEp, req, env, client)
              == SafeRespond(SaveObjectsOp(Get(source, "indexName"), Get(source, "objects"), ServiceEnvOf(env)), client)
    ensures var objectID := Lookup(req.params, "objectID");
            Truthy(objectID) ==>
              Handle(GetObjectEp, req, env, client)
              == SafeRespond(GetObjectOp(Lookup(req.query, "indexName"), objectID, ServiceEnvOf(env)), client)
    ensures var objectID := Lookup(req.params, "objectID");
            Truthy(objectID) ==>
              Handle(DeleteObjectEp, req, env, client)
              == SafeRespond(DeleteObjectOp(Lookup(req.query, "indexName"), objectID, ServiceEnvOf(env)), client)
    ensures var source := OrEmpty(req.body);
            Truthy(Get(source, "filters")) ==>
              Handle(DeleteByEp, req, env, client)
              == SafeRespond(DeleteByOp(Get(source, "indexName"), Get(source, "filters"), ServiceEnvOf(env)), client)
  {
  }

  /**
   Search never falls back to a default index: without an explicit `indexName`
   it answers 400 whatever the environment holds; with one, it searches that
   index with the rest of the body as parameters.
   */
  lemma SearchNeedsExplicitIndex(req: Request, env: Env, client: IndexCall -> Result<Value>)
    ensures var source := OrEmpty(req.body);
            var indexName := Get(source, "indexName");
            && (!Truthy(indexName) ==> Handle(SearchEp, req, env, client) == BadRequest(INDEX_NAME_REQUIRED))
            && (Truthy(indexName) ==>
                  Handle(SearchEp, req, env, client)
                  == SafeRespond(Ok(Search(Index(indexName),
                                           (var q := Get(Obj(SearchParams(source)), "query");
                                            if Truthy(q) then q else Str("")),
                                           Obj(SearchParams(source)))), client))
  {
  }

  /**
   Clearing targets the body's `indexName`, else `DEFAULT_INDEX`, and passes
   the resolved name explicitly, so the service's own fallback never applies.
   */
  lemma ClearIndexTarget(req: Request, env: Env, client: IndexCall -> Result<Value>)
    ensures var indexName := Get(OrEmpty(req.body), "indexName");
            var target := if Truthy(indexName) then indexName else env.defaultIndex;
            Truthy(target) ==>
              Handle(ClearIndexEp, req, env, client) == SafeRespond(Ok(ClearObjects(Index(target))), client)
  {
  }

  /**
   The partial-update payload is `body.partial` when the body defines it, the
   whole body (with its `indexName`) only when `partial` is `undefined`, and a
   body that is absent altogether makes the handler throw. A defined but falsy
   `partial` is not replaced by the body: validation turns it away.
   */
  lemma PartialUpdatePayload(req: Request, env: Env, client: IndexCall -> Result<Value>)
    ensures Nullish(req.body) ==> Handle(PartialUpdateEp, req, env, client) == Crash(TYPE_ERROR)
    ensures var objectID := Lookup(req.params, "objectID");
            var p := Get(req.body, "partial");
            req.body.Obj? && Truthy(objectID) && p == Undefined ==>
              Handle(PartialUpdateEp, req, env, client)
              == SafeRespond(PartialUpdateObjectOp(Get(req.body, "indexName"), objectID, req.body,
                                                   ServiceEnvOf(env)), client)
    ensures var objectID := Lookup(req.params, "objectID");
            var p := Get(req.body, "partial");
            req.body.Obj? && Truthy(objectID) && Truthy(p) ==>
              Handle(PartialUpdateEp, req, env, client)
              == SafeRespond(PartialUpdateObjectOp(Get(req.body, "indexName"), objectID, p,
                                                   ServiceEnvOf(env)), client)
  {
  }
}

=== FILE: algolia_service.dfy ===
/**
 The search-index service: resolves the index an operation targets and shapes
 the arguments of the one client call each operation makes. The search client
 itself is outside the model: an operation yields a descriptor of the call it
 would issue, or the error its promise rejects with.
 */
module AlgoliaService {
  import opened JsValue

  /** The process environment as far as the index service reads it. */
  datatype ServiceEnv = ServiceEnv(algoliaDefaultIndex: Value)

  const INDEX_REQUIRED := "Index name is required (pass indexName in request body or set DEFAULT_INDEX)"

  /** The index handle `client.initIndex(name)` returns. */
  datatype Index = Index(name: Value)

  /** The client calls the service issues, with their arguments. */
  datatype IndexCall =
    | SaveObjects(index: Index, objects: Value)
    | GetObject(index: Index, objectID: Value)
    | PartialUpdateObject(index: Index, attributes: map<string, Value>, createIfNotExists: bool)
    | DeleteObject(index: Index, objectID: Value)
    | Search(index: Index, query: Value, params: Value)
    | DeleteBy(index: Index, filters: Value)
    | ClearObjects(index: Index)

  /**
   `getIndex`: the given name when truthy, else `ALGOLIA_DEFAULT_INDEX`; throws
   when neither is set.
   */
  function GetIndex(indexName: Value, env: ServiceEnv): (r: Result<Index>)
    ensures r.Ok? <==> Truthy(indexName) || Truthy(env.algoliaDefaultIndex)
    ensures r.Ok? ==> Truthy(r.value.name)
    ensures Truthy(indexName) ==> r == Ok(Index(indexName))
    ensures !Truthy(indexName) && r.Ok? ==> r.value.name == env.algoliaDefaultIndex
    ensures r.Throws? ==> r.thrown == ErrorObject(INDEX_REQUIRED)
  {
    var idx := if Truthy(indexName) then indexName else env.algoliaDefaultIndex;
    if !Truthy(idx) then Throws(ErrorObject(INDEX_REQUIRED)) else Ok(Index(idx))
  }

  /** The call made on a resolved index, or the rejection. */
  function OnIndex(indexName: Value, env: ServiceEnv, call: Index -> IndexCall): (r: Result<IndexCall>)
    ensures r.Throws? <==> GetIndex(indexName, env).Throws?
    ensures r.Ok? ==> r.value == call(GetIndex(indexName, env).value)
  {
    match GetIndex(indexName, env)
    case Ok(index) => Ok(call(index))
    case Throws(e) => Throws(e)
  }

  /** `saveObjects`: the objects go to the resolved index as they are. */
  function SaveObjectsOp(indexName: Value, objects: Value, env: ServiceEnv): (r: Result<IndexCall>)
    ensures r.Throws? <==> GetIndex(indexName, env).Throws?
    ensures r.Ok? ==> r.value == SaveObjects(GetIndex(indexName, env).value, objects)
  {
    OnIndex(indexName, env, index => SaveObjects(index, objects))
  }

  /** `getObject`: fetches `objectID` from the resolved index. */
  function GetObjectOp(indexName: Value, objectID: Value, env: ServiceEnv): (r: Result<IndexCall>)
    ensures r.Throws? <==> GetIndex(indexName, env).Throws?
    ensures r.Ok? ==> r.value == GetObject(GetIndex(indexName, env).value, objectID)
  {
    OnIndex(indexName, env, index => GetObject(index, objectID))
  }

  /** `{ objectID, ...partialObject }`: keys of the partial object come later and win. */
  function PartialObject(objectID: Value, partialObject: Value): (m: map<string, Value>)
    ensures "objectID" in m
    ensures m.Keys == {"objectID"} + Spread(partialObject).Keys
    ensures forall k :: k in Spread(partialObject) ==> m[k] == Spread(partialObject)[k]
    ensures "objectID" !in Spread(partialObject) ==> m["objectID"] == objectID
  {
    map["objectID" := objectID] + Spread(partialObject)
  }

  /** `partialUpdateObject`: never creates a missing record. */
  function PartialUpdateObjectOp(indexName: Value, objectID: Value, partialObject: Value,
                                 env: ServiceEnv): (r: Result<IndexCall>)
    ensures r.Throws? <==> GetIndex(indexName, env).Throws?
    ensures r.Ok? ==> r.value.PartialUpdateObject? && !r.value.createIfNotExists
                      && r.value.index == GetIndex(indexName, env).value
                      && r.value.attributes == PartialObject(objectID, partialObject)
  {
    OnIndex(indexName, env, index => PartialUpdateObject(index, PartialObject(objectID, partialObject), false))
  }

  /** `deleteObject`: removes `objectID` from the resolved index. */
  function DeleteObjectOp(indexName: Value, objectID: Value, env: ServiceEnv): (r: Result<IndexCall>)
    ensures r.Throws? <==> GetIndex(indexName, env).Throws?
    ensures r.Ok? ==> r.value == DeleteObject(GetIndex(indexName, env).value, objectID)
  {
    OnIndex(indexName, env, index => DeleteObject(index, objectID))
  }

  /**
   `search`: the query is `params.query || ''` and the whole params object is
   passed as options. Reading `params.query` throws when there are no params.
   */
  function SearchOp(indexName: Value, params: Value, env: ServiceEnv): (r: Result<IndexCall>)
    ensures r.Throws? <==> GetIndex(indexName, env).Throws? || Nullish(params)
    ensures r.Ok? ==> r.value.Search? && r.value.params == params
    ensures r.Ok? && Truthy(Get(params, "query")) ==> r.value.query == Get(params, "query")
    ensures r.Ok? && !Truthy(Get(params, "query")) ==> r.value.query == Str("")
  {
    match GetIndex(indexName, env)
    case Throws(e) => Throws(e)
    case Ok(index) =>
      match Read(params, "query")
      case Throws(e) => Throws(e)
      case Ok(query) => Ok(Search(index, if Truthy(query) then query else Str(""), params))
  }

  /** `deleteBy`: the filter string is wrapped as `{filters}`. */
  function DeleteByOp(indexName: Value, filters: Value, env: ServiceEnv): (r: Result<IndexCall>)
    ensures r.Throws? <==> GetIndex(indexName, env).Throws?
    ensures r.Ok? ==> r.value.DeleteBy? && r.value.index == GetIndex(indexName, env).value
                      && Get(r.value.filters, "filters") == filters && Spread(r.value.filters).Keys == {"filters"}
  {
    OnIndex(indexName, env, index => DeleteBy(index, Single("filters", filters)))
  }

  /** `clearIndex`: empties the resolved index. */
  function ClearIndexOp(indexName: Value, env: ServiceEnv): (r: Result<IndexCall>)
    ensures r.Throws? <==> GetIndex(indexName, env).Throws?
    ensures r.Ok? ==> r.value == ClearObjects(GetIndex(indexName, env).value)
  {
    OnIndex(indexName, env, index => ClearObjects(index))
  }

  /**
   Every operation resolves its index first: none issues a client call when
   the index cannot be resolved, and each targets the resolved index otherwise.
   */
  lemma ResolvesIndexFirst(indexName: Value, env: ServiceEnv, x: Value, y: Value)
    ensures var ops := [SaveObjectsOp(indexName, x, env), GetObjectOp(indexName, x, env),
                        PartialUpdateObjectOp(indexName, x, y, env), DeleteObjectOp(indexName, x, env),
                        SearchOp(indexName, x, env), DeleteByOp(indexName, x, env), ClearIndexOp(indexName, env)];
            forall i :: 0 <= i < |ops| ==>
              (GetIndex(indexName, env).Throws? ==> ops[i] == Throws(ErrorObject(INDEX_REQUIRED)))
              && (ops[i].Ok? ==> ops[i].value.index == GetIndex(indexName, env).value)
  {
  }

  /** Operations forward their arguments unchanged to the resolved index. */
  lemma ForwardsArguments(indexName: Value, env: ServiceEnv, x: Value, y: Value)
    requires GetIndex(indexName, env).Ok?
    ensures var index := GetIndex(indexName, env).value;
            && SaveObjectsOp(indexName, x, env) == Ok(SaveObjects(index, x))
            && GetObjectOp(indexName, x, env) == Ok(GetObject(index, x))
            && DeleteObjectOp(indexName, x, env) == Ok(DeleteObject(index, x))
            && ClearIndexOp(indexName, env) == Ok(ClearObjects(index))
            && DeleteByOp(indexName, x, env) == Ok(DeleteBy(index, Single("filters", x)))
            && PartialUpdateObjectOp(indexName, x, y, env)
               == Ok(PartialUpdateObject(index, PartialObject(x, y), false))
            && PartialUpdateObjectOp(indexName, x, Obj(map[]), env)
               == Ok(PartialUpdateObject(index, map["objectID" := x], false))
  {
    assert PartialObject(x, Obj(map[])) == map["objectID" := x];
  }
}

=== FILE: auth_page_duck.dfy ===
/**
 The image slice of the authentication page's store: the reducer for the
 profile-image upload actions and the dispatch sequence of `saveImage`.
 `URL.createObjectURL` and `storableError` are outside the model and are
 passed in as functions.
 */
module AuthPageDuck {
  import opened JsValue

  datatype ImageState = ImageState(
    image: Value,
    previewUrl: Value,
    uploadImageError: Value,
    uploadInProgress: bool,
    updateInProgress: bool)

  const INITIAL_STATE := ImageState(Null, Null, Null, false, false)

  /** Actions by type, each with the `payload` it carries; `Foreign` is any other type. */
  datatype ImageAction =
    | UploadRequest(payload: Value)
    | UploadSuccess(payload: Value)
    | UploadError(payload: Value)
    | RemoveImage
    | Foreign(actionType: string)

  // Action creators.

  /**
   `uploadImageRequest(params)`: the payload is `{params}`, so it is always
   present and the reducer never throws on it, whatever `params` is.
   */
  function UploadImageRequest(params: Value): (r: ImageAction)
    ensures r.UploadRequest? && !Nullish(r.payload) && Get(r.payload, "params") == params
  {
    UploadRequest(Single("params", params))
  }

  /** `uploadImageSuccess(result)`: the payload is `result.data`. */
  function UploadImageSuccess(result: Value): (r: Result<ImageAction>)
    ensures r.Ok? <==> !Nullish(result)
    ensures r.Throws? ==> r.thrown == TYPE_ERROR
    ensures r.Ok? ==> r.value.UploadSuccess? && r.value.payload == Get(result, "data")
  {
    match Read(result, "data")
    case Ok(data) => Ok(UploadSuccess(data))
    case Throws(e) => Throws(e)
  }

  /**
   `uploadImageError(error)`: the payload is the argument itself, so the
   action is only reducible when an argument was given.
   */
  function UploadImageError(error: Value): (r: ImageAction)
    ensures r.UploadError? && (Nullish(r.payload) <==> Nullish(error)) && Get(r.payload, "error") == Get(error, "error")
  {
    UploadError(error)
  }

  /**
   The default `reducer`. The upload actions read fields of their payload, so
   an action without a payload throws.
   */
  function Reduce(s: ImageState, a: ImageAction): (r: Result<ImageState>)
    ensures r.Throws? <==> (a.UploadRequest? || a.UploadSuccess? || a.UploadError?) && Nullish(a.payload)
    ensures r.Ok? ==> r.value.updateInProgress == s.updateInProgress
    ensures r.Ok? && a.UploadRequest? ==>
              r.value.uploadInProgress && r.value.uploadImageError == Null && r.value.previewUrl == Null
              && r.value.image == Obj(Spread(Get(a.payload, "params")))
    ensures r.Ok? && a.UploadSuccess? ==>
              r.value == s.(image := Get(a.payload, "data"), previewUrl := Get(a.payload, "previewUrl"),
                            uploadInProgress := false)
    ensures r.Ok? && a.UploadError? ==>
              r.value == s.(image := Null, previewUrl := Null, uploadInProgress := false,
                            uploadImageError := Get(a.payload, "error"))
    ensures a.RemoveImage? ==> r == Ok(s.(image := Null, previewUrl := Null))
    ensures a.Foreign? ==> r == Ok(s)
  {
    match a
    case UploadRequest(payload) =>
      (match Read(payload, "params")
       case Throws(e) => Throws(e)
       case Ok(params) =>
         Ok(s.(image := Obj(Spread(params)), uploadInProgress := true, uploadImageError := Null, previewUrl := Null)))
    case UploadSuccess(payload) =>
      if Nullish(payload) then Throws(TYPE_ERROR)
      else Ok(s.(image := Get(payload, "data"), previewUrl := Get(payload, "previewUrl"), uploadInProgress := false))
    case UploadError(payload) =>
      (match Read(payload, "error")
       case Throws(e) => Throws(e)
       case Ok(error) =>
         Ok(s.(image := Null, uploadInProgress := false, uploadImageError := error, previewUrl := Null)))
    case RemoveImage => Ok(s.(image := Null, previewUrl := Null))
    case Foreign(_) => Ok(s)
  }

  /** The store after dispatching `actions` in order; the first throwing reduction ends the run. */
  function ReduceAll(s: ImageState, actions: seq<ImageAction>): Result<ImageState>
    decreases |actions|
  {
    if |actions| == 0 then Ok(s)
    else
      match ReduceAll(s, actions[..|actions| - 1])
      case Throws(e) => Throws(e)
      case Ok(t) => Reduce(t, actions[|actions| - 1])
  }

  /** No image action ever touches `updateInProgress`. */
  lemma {:induction false} UpdateFlagUntouched(s: ImageState, actions: seq<ImageAction>)
    ensures ReduceAll(s, actions).Ok? ==> ReduceAll(s, actions).value.updateInProgress == s.updateInProgress
    decreases |actions|
  {
    if |actions| > 0 {
      UpdateFlagUntouched(s, actions[..|actions| - 1]);
    }
  }

  /**
   A fresh store never has an update in progress, whatever image actions are
   dispatched to it.
   */
  lemma InitialStateNeverUpdating(actions: seq<ImageAction>)
    ensures ReduceAll(INITIAL_STATE, actions).Ok? ==> !ReduceAll(INITIAL_STATE, actions).value.updateInProgress
  {
    UpdateFlagUntouched(INITIAL_STATE, actions);
  }

  /**
   Dispatching `uploadImageSuccess(result)` stores `result.data.data` as the
   image and `result.data.previewUrl` as the preview and ends the upload; the
   creator throws without a result, and the reducer throws when the result
   has no `data`.
   */
  lemma SuccessStoresResultData(s: ImageState, result: Value)
    ensures UploadImageSuccess(result).Throws? <==> Nullish(result)
    ensures !Nullish(result) ==>
              var data := Get(result, "data");
              Reduce(s, UploadImageSuccess(result).value)
              == if Nullish(data) then Throws(TYPE_ERROR)
                 else Ok(s.(image := Get(data, "data"), previewUrl := Get(data, "previewUrl"), uploadInProgress := false))
  {
  }

  /**
   Dispatching `uploadImageRequest` then `uploadImageError({error})` leaves no
   image, no preview and no upload in progress, and stores exactly `error`.
   */
  lemma RequestThenErrorStoresError(s: ImageState, params: Value, error: Value)
    ensures var r := ReduceAll(s, [UploadImageRequest(params), UploadImageError(Single("error", error))]);
            r == Ok(s.(image := Null, previewUrl := Null, uploadInProgress := false, uploadImageError := error))
  {
    var actions := [UploadImageRequest(params), UploadImageError(Single("error", error))];
    assert actions[..1] == [actions[0]];
    assert actions[..1][..0] == [];
    var t := Reduce(s, actions[0]);
    assert Get(actions[0].payload, "params") == params;
    assert t.Ok? && ReduceAll(s, actions[..1]) == t;
    assert actions[..2] == actions;
    assert ReduceAll(s, actions) == Reduce(t.value, actions[1]);
  }

  /**
   The actions `saveImage(actionPayload)` dispatches. `createObjectUrl` is
   `URL.createObjectURL`, which may throw; `storable` is `storableError`.
   Reading `actionPayload.file` throws when there is no payload.
   */
  function SaveImage(actionPayload: Value, createObjectUrl: Value -> Result<Value>,
                     storable: Value -> Value): (r: seq<ImageAction>)
    ensures |r| == 2 && r[0] == UploadImageRequest(actionPayload)
    ensures r[1].UploadSuccess? || r[1].UploadError?
    ensures r[1].UploadSuccess? <==>
              !Nullish(actionPayload) && createObjectUrl(Get(actionPayload, "file")).Ok?
  {
    var request := UploadImageRequest(actionPayload);
    var url := match Read(actionPayload, "file")
               case Ok(file) => createObjectUrl(file)
               case Throws(e) => Throws(e);
    match url
    case Ok(objectUrl) =>
      var result := Single("data", Obj(map["previewUrl" := objectUrl, "data" := actionPayload]));
      [request, UploadImageSuccess(result).value]
    case Throws(e) =>
      [request, UploadImageError(Single("error", storable(e)))]
  }

  /**
   After `saveImage` the store holds the payload as the image and the object
   URL as the preview, with no upload in progress and no error; or, when the
   object URL could not be made, no image, no preview and the stored error.
   */
  lemma SaveImageOutcome(s: ImageState, actionPayload: Value, createObjectUrl: Value -> Result<Value>,
                         storable: Value -> Value)
    ensures var r := ReduceAll(s, SaveImage(actionPayload, createObjectUrl, storable));
            && r.Ok?
            && !r.value.uploadInProgress
            && r.value.updateInProgress == s.updateInProgress
            && (if !Nullish(actionPayload) && createObjectUrl(Get(actionPayload, "file")).Ok? then
                  && r.value.image == actionPayload
                  && r.value.previewUrl == createObjectUrl(Get(actionPayload, "file")).value
                  && r.value.uploadImageError == Null
                else
                  && r.value.image == Null && r.value.previewUrl == Null
                  && r.value.uploadImageError == storable(
                       if Nullish(actionPayload) then TYPE_ERROR
                       else createObjectUrl(Get(actionPayload, "file")).thrown))
  {
    var actions := SaveImage(actionPayload, createObjectUrl, storable);
    assert actions[..1] == [actions[0]];
    assert actions[..1][..0] == [];
    var t := Reduce(s, actions[0]);
    assert Get(actions[0].payload, "params") == actionPayload;
    assert t.Ok? && ReduceAll(s, actions[..1]) == t;
    assert !Nullish(actions[1].payload);
    assert actions[..2] == actions;
    assert ReduceAll(s, actions) == Reduce(t.value, actions[1]);
  }
}

=== FILE: block_builder.dfy ===
/**
 The page builder's block list: which component renders each configured
 block, the id each block gets, the two fixed button groups that replace the
 "three steps" blocks, and where those buttons lead. Building the location
 string from a route name is outside the model: a route is a descriptor.
 */
module BlockBuilder {
  import opened JsValue

  // ---------------------------------------------------------------------
  // Button routing
  // ---------------------------------------------------------------------

  /** Where a button click navigates: a named route with path params, or `'/'`. */
  datatype Route = Named(page: string, pathParams: map<string, string>) | RootPath

  const SIGNUP_ROUTE := Named("SignupPage", map[])
  const NEW_LISTING_ROUTE := Named("EditListingPage", map["slug" := "slug", "id" := "000-000-000", "type" := "new", "tab" := "details"])
  const SEARCH_ROUTE := Named("SearchPage", map[])
  const INBOX_ROUTE := Named("InboxPage", map["tab" := "orders"])
  const CART_ROUTE := Named("CartPage", map[])

  /** `handleButtonClick(action)`. */
  function HandleButtonClick(action: string, isAuthenticated: Value): (r: Route)
    ensures !Truthy(isAuthenticated) ==> r == SIGNUP_ROUTE
    ensures Truthy(isAuthenticated) ==>
              && (r == NEW_LISTING_ROUTE <==> action in {"list", "sell"})
              && (r == SEARCH_ROUTE <==> action in {"search", "find"})
              && (r == INBOX_ROUTE <==> action == "connect")
              && (r == CART_ROUTE <==> action == "buy")
              && (r == RootPath <==> action !in {"list", "sell", "search", "find", "connect", "buy"})
  {
    if !Truthy(isAuthenticated) then SIGNUP_ROUTE
    else if action == "list" || action == "sell" then NEW_LISTING_ROUTE
    else if action == "search" || action == "find" then SEARCH_ROUTE
    else if action == "connect" then INBOX_ROUTE
    else if action == "buy" then CART_ROUTE
    else RootPath
  }

  // ---------------------------------------------------------------------
  // Components, ids and rendering
  // ---------------------------------------------------------------------

  /** `defaultBlockComponents`: each block type's `{component}` entry. */
  const DEFAULT_BLOCK_COMPONENTS: map<string, Value> := map[
    "defaultBlock" := Single("component", Str("BlockDefault")),
    "footerBlock" := Single("component", Str("BlockFooter")),
    "socialMediaLink" := Single("component", Str("BlockSocialMediaLink"))]

  /** `{ ...defaultBlockComponents, ...blockComponents }`. */
  function MergeComponents(blockComponents: Value): (m: map<string, Value>)
    ensures m.Keys == DEFAULT_BLOCK_COMPONENTS.Keys + Spread(blockComponents).Keys
    ensures forall k :: k in Spread(blockComponents) ==> m[k] == Spread(blockComponents)[k]
    ensures forall k :: k in DEFAULT_BLOCK_COMPONENTS && k !in Spread(blockComponents) ==>
              m[k] == DEFAULT_BLOCK_COMPONENTS[k]
  {
    DEFAULT_BLOCK_COMPONENTS + Spread(blockComponents)
  }

  const BLOCK_ID_INFIX := "-block-"

  /** `block.blockId || `${sectionId}-block-${index + 1}``. */
  function BlockId(block: Value, sectionId: Value, index: nat): (id: Value)
    ensures Truthy(Get(block, "blockId")) ==> id == Get(block, "blockId")
    ensures !Truthy(Get(block, "blockId")) ==>
              id == Str(ToJsString(sectionId) + BLOCK_ID_INFIX + NatToDecimal(index + 1))
  {
    var given := Get(block, "blockId");
    if Truthy(given) then given else Str(ToJsString(sectionId) + BLOCK_ID_INFIX + NatToDecimal(index + 1))
  }

  /** Strings that agree after a common prefix agree. */
  lemma PrefixCancel(p: string, a: string, b: string)
    requires p + a == p + b
    ensures a == b
  {
    assert a == (p + a)[|p|..];
    assert b == (p + b)[|p|..];
  }

  /** Blocks without an id of their own get distinct ids within a section. */
  lemma DefaultIdsDistinct(b1: Value, b2: Value, sectionId: Value, i: nat, j: nat)
    requires !Truthy(Get(b1, "blockId")) && !Truthy(Get(b2, "blockId")) && i != j
    ensures BlockId(b1, sectionId, i) != BlockId(b2, sectionId, j)
  {
    var p := ToJsString(sectionId) + BLOCK_ID_INFIX;
    if BlockId(b1, sectionId, i) == BlockId(b2, sectionId, j) {
      assert p + NatToDecimal(i + 1) == ToJsString(sectionId) + BLOCK_ID_INFIX + NatToDecimal(i + 1);
      assert p + NatToDecimal(j + 1) == ToJsString(sectionId) + BLOCK_ID_INFIX + NatToDecimal(j + 1);
      PrefixCancel(p, NatToDecimal(i + 1), NatToDecimal(j + 1));
      DecimalInjective(i + 1, j + 1);
    }
  }

  const SEARCH_STEP_ID := "three_steps-block-2"
  const SELL_STEP_ID := "three_steps-block-3"
  const SEARCH_STEP_ACTIONS: seq<string> := ["search", "find", "buy"]
  const SELL_STEP_ACTIONS: seq<string> := ["list", "connect", "sell"]

  /** What one block renders as. */
  datatype Rendered =
    | ButtonGroup(key: string, actions: seq<string>)
    | Component(component: Value, props: map<string, Value>)
    | NothingRendered

  /** `` `${blockId}_i${index}` ``: the React key. */
  function BlockKey(blockId: Value, index: nat): string {
    ToJsString(blockId) + "_i" + NatToDecimal(index)
  }

  /** `fieldComponents ? { options: { fieldComponents } } : {}`. */
  function BlockOptionsMaybe(fieldComponents: Value): (m: map<string, Value>)
    ensures "options" in m <==> Truthy(fieldComponents)
  {
    if Truthy(fieldComponents) then map["options" := Single("fieldComponents", fieldComponents)] else map[]
  }

  /** `components[block.blockType]?.component`: the component the map assigns to the block's type. */
  function ComponentFor(block: Value, components: map<string, Value>): Value {
    Get(Get(Obj(components), ToJsString(Get(block, "blockType"))), "component")
  }

  /** Ids that turn a block into one of the two button groups. */
  predicate IsStepId(id: Value) {
    id == Str(SEARCH_STEP_ID) || id == Str(SELL_STEP_ID)
  }

  /**
   The rendering of the block at `index`. Reading `block.blockType` comes
   first, so a missing block throws before anything is rendered. Any other
   block is a button group when its id is a step id, else the component its
   type maps to, else nothing. The component receives the block's own
   properties, its resolved `blockId`, the `options` prop when field
   components are given, and the remaining props, later ones winning.
   */
  function RenderBlock(block: Value, index: nat, sectionId: Value, components: map<string, Value>,
                       fieldComponents: Value, otherProps: map<string, Value>): (r: Result<Rendered>)
    ensures r.Throws? <==> Nullish(block)
    ensures r.Throws? ==> r.thrown == TYPE_ERROR
    ensures var id := BlockId(block, sectionId, index);
            && (r.Ok? && id == Str(SEARCH_STEP_ID) ==> r.value == ButtonGroup(BlockKey(id, index), SEARCH_STEP_ACTIONS))
            && (r.Ok? && id == Str(SELL_STEP_ID) ==> r.value == ButtonGroup(BlockKey(id, index), SELL_STEP_ACTIONS))
    ensures r.Ok? && !IsStepId(BlockId(block, sectionId, index)) ==>
              (r.value == NothingRendered <==> !Truthy(ComponentFor(block, components)))
    ensures r.Ok? && r.value.Component? ==>
              && !IsStepId(BlockId(block, sectionId, index))
              && r.value.component == ComponentFor(block, components)
              && Truthy(r.value.component)
              && (forall k :: k in otherProps ==> k in r.value.props && r.value.props[k] == otherProps[k])
              && "blockId" in r.value.props
              && ("blockId" !in otherProps ==> r.value.props["blockId"] == BlockId(block, sectionId, index))
              && (Truthy(fieldComponents) ==> "options" in r.value.props)
              && (Truthy(fieldComponents) && "options" !in otherProps ==>
                    r.value.props["options"] == Single("fieldComponents", fieldComponents))
              && ("options" in r.value.props ==>
                    Truthy(fieldComponents) || "options" in Spread(block) || "options" in otherProps)
              && (forall k :: k in Spread(block) && k !in otherProps && k != "blockId"
                              && (k != "options" || !Truthy(fieldComponents)) ==>
                                k in r.value.props && r.value.props[k] == Spread(block)[k])
  {
    match Read(block, "blockType")
    case Throws(e) => Throws(e)
    case Ok(blockType) =>
      var blockId := BlockId(block, sectionId, index);
      var component := ComponentFor(block, components);
      if blockId == Str(SEARCH_STEP_ID) then Ok(ButtonGroup(BlockKey(blockId, index), SEARCH_STEP_ACTIONS))
      else if blockId == Str(SELL_STEP_ID) then Ok(ButtonGroup(BlockKey(blockId, index), SELL_STEP_ACTIONS))
      else if Truthy(component) then
        Ok(Component(component, Spread(block)["blockId" := blockId] + BlockOptionsMaybe(fieldComponents) + otherProps))
      else Ok(NothingRendered)
  }

  /**
   A block of a type the component map does not know renders nothing, unless
   its id makes it one of the two button groups; a missing block throws.
   */
  lemma UnknownTypeRendersNothing(block: Value, index: nat, sectionId: Value, components: map<string, Value>,
                                  fieldComponents: Value, otherProps: map<string, Value>)
    requires ToJsString(Get(block, "blockType")) !in components
    requires BlockId(block, sectionId, index) !in {Str(SEARCH_STEP_ID), Str(SELL_STEP_ID)}
    ensures RenderBlock(block, index, sectionId, components, fieldComponents, otherProps)
            == if Nullish(block) then Throws(TYPE_ERROR) else Ok(NothingRendered)
  {
  }

  /** With a user signed in, every button of the two groups leads to a page of its own, never to `'/'`. */
  lemma StepButtonsRoute(isAuthenticated: Value)
    requires Truthy(isAuthenticated)
    ensures forall a :: a in SEARCH_STEP_ACTIONS ==>
              HandleButtonClick(a, isAuthenticated) in {SEARCH_ROUTE, CART_ROUTE}
    ensures forall a :: a in SELL_STEP_ACTIONS ==>
              HandleButtonClick(a, isAuthenticated) in {NEW_LISTING_ROUTE, INBOX_ROUTE}
  {
  }

  /**
   `BlockBuilder`: nothing for missing or empty `blocks` (an absent prop
   defaults to `[]`); a thrown error when `blocks` is set but not an array, or
   when one of its entries is missing.
   */
  function BuildBlocks(blocks: Value, sectionId: Value, options: Value, otherProps: map<string, Value>)
    : (r: Result<Option<seq<Rendered>>>)
    ensures r == Ok(None) <==> !Truthy(blocks) || Get(blocks, "length") == Num(0)
    ensures r.Throws? <==>
              Truthy(blocks) && Get(blocks, "length") != Num(0)
              && (!blocks.Arr? || exists i :: 0 <= i < |blocks.items| && Nullish(blocks.items[i]))
    ensures r.Throws? ==> r.thrown == TYPE_ERROR
    ensures r.Ok? && r.value.Some? ==> blocks.Arr? && |r.value.value| == |blocks.items| > 0
  {
    var source := OrEmpty(options);
    var components := MergeComponents(Get(source, "blockComponents"));
    var fieldComponents := Get(source, "fieldComponents");
    if !Truthy(blocks) || Get(blocks, "length") == Num(0) then Ok(None)
    else
      match blocks
      case Arr(items) =>
        (match RenderAll(items, sectionId, components, fieldComponents, otherProps)
         case Ok(rendered) => Ok(Some(rendered))
         case Throws(e) => Throws(e))
      case _ => Throws(TYPE_ERROR)
  }

  /**
   `blocks.map(...)`: each block rendered at its own index; the first missing
   block ends the map with its error.
   */
  function RenderAll(items: seq<Value>, sectionId: Value, components: map<string, Value>,
                     fieldComponents: Value, otherProps: map<string, Value>): (r: Result<seq<Rendered>>)
    ensures r.Throws? <==> exists i :: 0 <= i < |items| && Nullish(items[i])
    ensures r.Throws? ==> r.thrown == TYPE_ERROR
    ensures r.Ok? ==> |r.value| == |items|
    ensures r.Ok? ==> forall i :: 0 <= i < |items| ==>
              Ok(r.value[i]) == RenderBlock(items[i], i, sectionId, components, fieldComponents, otherProps)
    decreases |items|
  {
    if |items| == 0 then Ok([])
    else
      var n := |items| - 1;
      var front := items[..n];
      assert forall i :: 0 <= i < n ==> front[i] == items[i];
      match RenderAll(front, sectionId, components, fieldComponents, otherProps)
      case Throws(e) => Throws(e)
      case Ok(done) =>
        match RenderBlock(items[n], n, sectionId, components, fieldComponents, otherProps)
        case Throws(e) => Throws(e)
        case Ok(last) => Ok(done + [last])
  }

  /**
   Each block renders as `RenderBlock` says, with the caller's block
   components over the defaults, unless some block is missing.
   */
  lemma BuildBlocksRendersEach(blocks: Value, sectionId: Value, options: Value, otherProps: map<string, Value>,
                               i: nat)
    requires blocks.Arr? && i < |blocks.items|
    ensures var source := OrEmpty(options);
            var r := BuildBlocks(blocks, sectionId, options, otherProps);
            && (r.Ok? <==> forall j :: 0 <= j < |blocks.items| ==> !Nullish(blocks.items[j]))
            && (r.Ok? ==>
                  && r.value.Some?
                  && Ok(r.value.value[i])
                     == RenderBlock(blocks.items[i], i, sectionId, MergeComponents(Get(source, "blockComponents")),
                                    Get(source, "fieldComponents"), otherProps))
  {
  }

  /**
   Which component a well-formed block list renders at position `i`: the
   caller's `blockComponents` entry for the block's type when there is one,
   the default entry otherwise, and nothing when the chosen entry has no
   component. A rendered component gets the block's id and, when field
   components are given, the `options` prop.
   */
  lemma BuildBlocksUsesComponent(blocks: Value, sectionId: Value, options: Value, otherProps: map<string, Value>,
                                 i: nat)
    requires blocks.Arr? && i < |blocks.items|
    requires forall j :: 0 <= j < |blocks.items| ==> !Nullish(blocks.items[j])
    requires !IsStepId(BlockId(blocks.items[i], sectionId, i))
    ensures var source := OrEmpty(options);
            var given := Spread(Get(source, "blockComponents"));
            var block := blocks.items[i];
            var t := ToJsString(Get(block, "blockType"));
            var chosen := if t in given then given[t] else if t in DEFAULT_BLOCK_COMPONENTS then DEFAULT_BLOCK_COMPONENTS[t] else Undefined;
            var r := BuildBlocks(blocks, sectionId, options, otherProps);
            && r.Ok? && r.value.Some?
            && (!Truthy(Get(chosen, "component")) ==> r.value.value[i] == NothingRendered)
            && (Truthy(Get(chosen, "component")) ==>
                  && r.value.value[i].Component?
                  && r.value.value[i].component == Get(chosen, "component")
                  && "blockId" in r.value.value[i].props
                  && ("blockId" !in otherProps ==> r.value.value[i].props["blockId"] == BlockId(block, sectionId, i))
                  && (Truthy(Get(source, "fieldComponents")) ==> "options" in r.value.value[i].props))
  {
  }
}

=== FILE: featured_listings.dfy ===
/**
 The featured-listings slice of the Redux store: the reducer that tracks the
 featured-listing fetch and the favourite toggle, the `resultIds` filter over
 fetched listings, and the favourites list update `toggleFavorite` sends to the
 user profile. The marketplace SDK (listing query, profile update) and the
 `storableError` helper are outside the model; their outcomes are parameters.
 */
module FeaturedListingDuck {
  import opened JsValue

  // ---------------------------------------------------------------------
  // Fetched listings
  // ---------------------------------------------------------------------

  /** The parts of a fetched listing `resultIds` looks at. */
  datatype Listing = Listing(id: Value, deleted: Value, state: Value)

  const PUBLISHED := "published"

  /** `!l.attributes.deleted && l.attributes.state === 'published'`. */
  predicate Shown(l: Listing) {
    !Truthy(l.deleted) && l.state == Str(PUBLISHED)
  }

  /** `resultIds`: the ids of the shown listings, in the order fetched. */
  function ResultIds(listings: seq<Listing>): (r: seq<Value>)
    ensures |r| <= |listings|
    ensures forall id :: id in r <==>
              exists i :: 0 <= i < |listings| && Shown(listings[i]) && listings[i].id == id
  {
    if |listings| == 0 then []
    else
      var rest := ResultIds(listings[..|listings| - 1]);
      var l := listings[|listings| - 1];
      assert forall i :: 0 <= i < |listings| - 1 ==> listings[..|listings| - 1][i] == listings[i];
      if Shown(l) then rest + [l.id] else rest
  }

  /** Filtering distributes over concatenation, so the input order is kept. */
  lemma {:induction false} ResultIdsAppend(a: seq<Listing>, b: seq<Listing>)
    ensures ResultIds(a + b) == ResultIds(a) + ResultIds(b)
    decreases |b|
  {
    if |b| == 0 {
      assert a + b == a;
    } else {
      var b' := b[..|b| - 1];
      assert (a + b)[..|a + b| - 1] == a + b';
      ResultIdsAppend(a, b');
    }
  }

  /** When every listing is shown, the result is exactly their ids. */
  lemma {:induction false} ResultIdsAllShown(listings: seq<Listing>)
    requires forall i :: 0 <= i < |listings| ==> Shown(listings[i])
    ensures ResultIds(listings) == seq(|listings|, i requires 0 <= i < |listings| => listings[i].id)
    decreases |listings|
  {
    if |listings| > 0 {
      var p := listings[..|listings| - 1];
      ResultIdsAllShown(p);
    }
  }

  // ---------------------------------------------------------------------
  // Reducer
  // ---------------------------------------------------------------------

  datatype FeaturedState = FeaturedState(
    fetchInProgress: bool,
    fetchError: Value,
    featuredIds: seq<Value>,
    toggleFavInProgress: bool,
    toggleFavError: Value)

  const INITIAL_STATE := FeaturedState(false, Null, [], false, Null)

  /**
   The actions the reducer distinguishes. A fetch success carries the listings
   of `payload.data.data`; `Foreign` is any action type of another slice.
   */
  datatype Action =
    | FetchRequest
    | FetchSuccess(listings: seq<Listing>)
    | FetchError(payload: Value)
    | ToggleRequest
    | ToggleSuccess(payload: Value)
    | ToggleError(payload: Value)
    | Foreign(actionType: string)

  predicate IsFetch(a: Action) {
    a.FetchRequest? || a.FetchSuccess? || a.FetchError?
  }

  predicate IsToggle(a: Action) {
    a.ToggleRequest? || a.ToggleSuccess? || a.ToggleError?
  }

  /** `featuredPageReducer`. */
  function Reduce(s: FeaturedState, a: Action): (r: FeaturedState)
    ensures IsFetch(a) ==>
              r.toggleFavInProgress == s.toggleFavInProgress && r.toggleFavError == s.toggleFavError
              && !r.fetchInProgress == !a.FetchRequest?
    ensures IsToggle(a) ==>
              r.fetchInProgress == s.fetchInProgress && r.fetchError == s.fetchError
              && r.featuredIds == s.featuredIds
              && r.toggleFavInProgress == a.ToggleRequest?
    ensures !a.FetchSuccess? ==> r.featuredIds == s.featuredIds
    ensures a.FetchSuccess? ==> r.fetchError == s.fetchError
    ensures a.FetchRequest? ==> r.fetchError == Null
    ensures a.FetchError? ==> r.fetchError == a.payload
    ensures a.FetchSuccess? ==> r.featuredIds == ResultIds(a.listings)
    ensures a.ToggleRequest? ==> r.toggleFavError == Null
    ensures a.ToggleSuccess? ==> r.toggleFavError == s.toggleFavError
    ensures a.ToggleError? ==> r.toggleFavError == a.payload
    ensures a.Foreign? ==> r == s
  {
    match a
    case FetchRequest => s.(fetchInProgress := true, fetchError := Null)
    case FetchSuccess(listings) => s.(featuredIds := ResultIds(listings), fetchInProgress := false)
    case FetchError(e) => s.(fetchInProgress := false, fetchError := e)
    case ToggleRequest => s.(toggleFavInProgress := true, toggleFavError := Null)
    case ToggleSuccess(_) => s.(toggleFavInProgress := false)
    case ToggleError(e) => s.(toggleFavInProgress := false, toggleFavError := e)
    case Foreign(_) => s
  }

  /** The store after dispatching `actions` in order. */
  function ReduceAll(s: FeaturedState, actions: seq<Action>): FeaturedState
    decreases |actions|
  {
    if |actions| == 0 then s
    else Reduce(ReduceAll(s, actions[..|actions| - 1]), actions[|actions| - 1])
  }

  /**
   A fresh store shows no featured listings until a fetch succeeds, and an
   error is recorded only by an action that carries one.
   */
  lemma {:induction false} InitialStateUntilFetched(actions: seq<Action>)
    requires forall i :: 0 <= i < |actions| ==> !actions[i].FetchSuccess?
    ensures ReduceAll(INITIAL_STATE, actions).featuredIds == []
    ensures (forall i :: 0 <= i < |actions| ==> !actions[i].FetchError?) ==>
              ReduceAll(INITIAL_STATE, actions).fetchError == Null
    ensures (forall i :: 0 <= i < |actions| ==> !actions[i].ToggleError?) ==>
              ReduceAll(INITIAL_STATE, actions).toggleFavError == Null
    decreases |actions|
  {
    if |actions| > 0 {
      InitialStateUntilFetched(actions[..|actions| - 1]);
    }
  }

  /** The fetch actions of `actions`, in dispatch order. */
  function FetchActions(actions: seq<Action>): (r: seq<Action>)
    ensures forall a :: a in r <==> a in actions && IsFetch(a)
    decreases |actions|
  {
    if |actions| == 0 then []
    else
      var rest := FetchActions(actions[..|actions| - 1]);
      if IsFetch(actions[|actions| - 1]) then rest + [actions[|actions| - 1]] else rest
  }

  /** The toggle actions of `actions`, in dispatch order. */
  function ToggleActions(actions: seq<Action>): (r: seq<Action>)
    ensures forall a :: a in r <==> a in actions && IsToggle(a)
    decreases |actions|
  {
    if |actions| == 0 then []
    else
      var rest := ToggleActions(actions[..|actions| - 1]);
      if IsToggle(actions[|actions| - 1]) then rest + [actions[|actions| - 1]] else rest
  }

  /** Selecting the fetch actions distributes over concatenation, so their order is kept. */
  lemma {:induction false} FetchActionsAppend(a: seq<Action>, b: seq<Action>)
    ensures FetchActions(a + b) == FetchActions(a) + FetchActions(b)
    decreases |b|
  {
    if |b| == 0 {
      assert a + b == a;
    } else {
      var b' := b[..|b| - 1];
      assert (a + b)[..|a + b| - 1] == a + b';
      FetchActionsAppend(a, b');
    }
  }

  /** Selecting the toggle actions distributes over concatenation, so their order is kept. */
  lemma {:induction false} ToggleActionsAppend(a: seq<Action>, b: seq<Action>)
    ensures ToggleActions(a + b) == ToggleActions(a) + ToggleActions(b)
    decreases |b|
  {
    if |b| == 0 {
      assert a + b == a;
    } else {
      var b' := b[..|b| - 1];
      assert (a + b)[..|a + b| - 1] == a + b';
      ToggleActionsAppend(a, b');
    }
  }

  /**
   The two halves of the slice are independent: the fetch fields depend only on
   the fetch actions dispatched, the toggle fields only on the toggle actions.
   */
  lemma {:induction false} SlicesIndependent(s: FeaturedState, actions: seq<Action>)
    ensures var r := ReduceAll(s, actions);
            var f := ReduceAll(s, FetchActions(actions));
            r.fetchInProgress == f.fetchInProgress && r.fetchError == f.fetchError
            && r.featuredIds == f.featuredIds
    ensures var r := ReduceAll(s, actions);
            var t := ReduceAll(s, ToggleActions(actions));
            r.toggleFavInProgress == t.toggleFavInProgress && r.toggleFavError == t.toggleFavError
    decreases |actions|
  {
    if |actions| > 0 {
      var p := actions[..|actions| - 1];
      SlicesIndependent(s, p);
    }
  }

  /** The last fetch action in `actions`, if any. */
  function LastFetch(actions: seq<Action>): (r: Option<Action>)
    ensures r.None? <==> forall a :: a in actions ==> !IsFetch(a)
    ensures r.Some? ==> IsFetch(r.value)
    ensures r.Some? ==> exists i :: 0 <= i < |actions| && actions[i] == r.value
                                    && forall j :: i < j < |actions| ==> !IsFetch(actions[j])
    decreases |actions|
  {
    if |actions| == 0 then None
    else if IsFetch(actions[|actions| - 1]) then Some(actions[|actions| - 1])
    else LastFetch(actions[..|actions| - 1])
  }

  /**
   A fetch is in progress exactly when the last fetch action was a request, and
   the featured ids are those of the last successful fetch since then.
   */
  lemma {:induction false} FetchTracksLastAction(s: FeaturedState, actions: seq<Action>)
    ensures var r := ReduceAll(s, actions);
            match LastFetch(actions)
            case None => r.fetchInProgress == s.fetchInProgress && r.featuredIds == s.featuredIds
            case Some(a) =>
              && r.fetchInProgress == a.FetchRequest?
              && (a.FetchSuccess? ==> r.featuredIds == ResultIds(a.listings))
              && (a.FetchError? ==> r.fetchError == a.payload)
    decreases |actions|
  {
    if |actions| > 0 {
      FetchTracksLastAction(s, actions[..|actions| - 1]);
    }
  }

  // ---------------------------------------------------------------------
  // Favourites
  // ---------------------------------------------------------------------

  predicate NoDup<T(==)>(xs: seq<T>) {
    forall i, j :: 0 <= i < j < |xs| ==> xs[i] != xs[j]
  }

  /** `Array.from(new Set(xs))`: every value once, at its first occurrence. */
  function Dedupe(xs: seq<string>): (r: seq<string>)
    ensures NoDup(r)
    ensures forall x :: x in r <==> x in xs
    ensures |r| <= |xs|
    decreases |xs|
  {
    if |xs| == 0 then []
    else
      var p := Dedupe(xs[..|xs| - 1]);
      var x := xs[|xs| - 1];
      assert forall y :: y in xs <==> y in xs[..|xs| - 1] || y == x by {
        assert xs == xs[..|xs| - 1] + [x];
      }
      if x in p then p else p + [x]
  }

  /** Index of the first occurrence of `x`. */
  function FirstIndex<T(==)>(xs: seq<T>, x: T): (i: nat)
    requires x in xs
    ensures i < |xs| && xs[i] == x && x !in xs[..i]
  {
    if xs[0] == x then 0
    else
      var k := FirstIndex(xs[1..], x);
      assert xs[..k + 1] == [xs[0]] + xs[1..][..k];
      k + 1
  }

  lemma FirstIndexExtend<T>(xs: seq<T>, y: T, x: T)
    requires x in xs
    ensures FirstIndex(xs + [y], x) == FirstIndex(xs, x)
  {
    var i := FirstIndex(xs, x);
    assert (xs + [y])[..i] == xs[..i];
    FirstIndexUnique(xs + [y], x, i);
  }

  /** The first occurrence is the only index holding `x` with no `x` before it. */
  lemma FirstIndexUnique<T>(xs: seq<T>, x: T, k: nat)
    requires k < |xs| && xs[k] == x && x !in xs[..k]
    ensures FirstIndex(xs, x) == k
  {
  }

  lemma FirstIndexNew<T>(xs: seq<T>, x: T)
    requires x !in xs
    ensures FirstIndex(xs + [x], x) == |xs|
  {
    assert (xs + [x])[..|xs|] == xs;
    FirstIndexUnique(xs + [x], x, |xs|);
  }

  /** The kept values appear in the order of their first occurrences. */
  lemma {:induction false} DedupeKeepsFirstOrder(xs: seq<string>)
    ensures forall i, j :: 0 <= i < j < |Dedupe(xs)| ==>
              FirstIndex(xs, Dedupe(xs)[i]) < FirstIndex(xs, Dedupe(xs)[j])
    decreases |xs|
  {
    if |xs| > 0 {
      var p := xs[..|xs| - 1];
      var x := xs[|xs| - 1];
      assert xs == p + [x];
      DedupeKeepsFirstOrder(p);
      var d := Dedupe(p);
      var r := Dedupe(xs);
      forall i, j | 0 <= i < j < |r|
        ensures FirstIndex(xs, r[i]) < FirstIndex(xs, r[j])
      {
        FirstIndexExtend(p, x, r[i]);
        if j < |d| {
          FirstIndexExtend(p, x, r[j]);
        } else {
          assert r[j] == x && x !in p;
          FirstIndexNew(p, x);
        }
      }
    }
  }

  /** A list without duplicates is left as it is. */
  lemma {:induction false} DedupeNoDup(xs: seq<string>)
    requires NoDup(xs)
    ensures Dedupe(xs) == xs
    decreases |xs|
  {
    if |xs| > 0 {
      var p := xs[..|xs| - 1];
      assert NoDup(p);
      DedupeNoDup(p);
      assert xs[|xs| - 1] !in p;
      assert xs == p + [xs[|xs| - 1]];
    }
  }

  /** The favourites list after marking `listingId` as a favourite. */
  function AddFavorite(existing: seq<string>, listingId: string): (r: seq<string>)
    ensures NoDup(r) && listingId in r
    ensures forall x :: x in r <==> x in existing || x == listingId
  {
    Dedupe(existing + [listingId])
  }

  /**
   Adding keeps the first occurrences of the existing favourites in order and
   appends `listingId` only when it is new.
   */
  lemma AddFavoriteAppendsIfNew(existing: seq<string>, listingId: string)
    ensures AddFavorite(existing, listingId)
            == Dedupe(existing) + (if listingId in existing then [] else [listingId])
  {
    var xs := existing + [listingId];
    assert xs[..|xs| - 1] == existing;
  }

  /** The favourites list after unmarking `listingId`: `filter(id => id !== listingId)`. */
  function RemoveFavorite(existing: seq<string>, listingId: string): (r: seq<string>)
    ensures forall x :: x in r <==> x in existing && x != listingId
    ensures forall x :: x != listingId ==> multiset(r)[x] == multiset(existing)[x]
    ensures multiset(r)[listingId] == 0
    decreases |existing|
  {
    if |existing| == 0 then []
    else
      var p := existing[..|existing| - 1];
      var x := existing[|existing| - 1];
      assert existing == p + [x];
      var rest := RemoveFavorite(p, listingId);
      if x != listingId then rest + [x] else rest
  }

  /** Removing distributes over concatenation, so the other favourites keep their order. */
  lemma {:induction false} RemoveFavoriteAppend(a: seq<string>, b: seq<string>, listingId: string)
    ensures RemoveFavorite(a + b, listingId) == RemoveFavorite(a, listingId) + RemoveFavorite(b, listingId)
    decreases |b|
  {
    if |b| == 0 {
      assert a + b == a;
    } else {
      var b' := b[..|b| - 1];
      var x := b[|b| - 1];
      var tail := if x != listingId then [x] else [];
      assert (a + b)[..|a + b| - 1] == a + b' && (a + b)[|a + b| - 1] == x;
      assert RemoveFavorite(a + b, listingId) == RemoveFavorite(a + b', listingId) + tail;
      assert RemoveFavorite(b, listingId) == RemoveFavorite(b', listingId) + tail;
      RemoveFavoriteAppend(a, b', listingId);
    }
  }

  /** Removing a favourite that is not in the list changes nothing. */
  lemma {:induction false} RemoveAbsent(existing: seq<string>, listingId: string)
    requires listingId !in existing
    ensures RemoveFavorite(existing, listingId) == existing
    decreases |existing|
  {
    if |existing| > 0 {
      var p := existing[..|existing| - 1];
      assert existing == p + [existing[|existing| - 1]];
      RemoveAbsent(p, listingId);
    }
  }

  /** Marking a new favourite and unmarking it again restores a duplicate-free list. */
  lemma AddThenRemove(existing: seq<string>, listingId: string)
    requires NoDup(existing) && listingId !in existing
    ensures RemoveFavorite(AddFavorite(existing, listingId), listingId) == existing
  {
    AddFavoriteAppendsIfNew(existing, listingId);
    DedupeNoDup(existing);
    RemoveFavoriteAppend(existing, [listingId], listingId);
    RemoveAbsent(existing, listingId);
    assert RemoveFavorite([listingId], listingId) == [];
  }

  // ---------------------------------------------------------------------
  // toggleFavorite
  // ---------------------------------------------------------------------

  /** The current user as far as favourites go: `profile.publicData.favorites`, if set. */
  datatype User = User(favorites: Option<seq<string>>)

  const NO_CURRENT_USER := "No current user available"

  /** What the thunk does after its synchronous part. */
  datatype ToggleEffect =
    | Reject(error: Value)
    | UpdateProfile(favorites: seq<string>)

  /** `currentUser.attributes.profile.publicData.favorites || []`. */
  function ExistingFavorites(user: User): (r: seq<string>)
    ensures user.favorites.Some? ==> r == user.favorites.value
    ensures user.favorites.None? ==> r == []
  {
    match user.favorites
    case Some(xs) => xs
    case None => []
  }

  /**
   The synchronous part of `toggleFavorite`: the actions dispatched and what
   happens next. `storable` stands for `storableError`.
   */
  function ToggleFavoriteStart(listingId: string, isFav: Value, currentUser: Option<User>,
                               storable: Value -> Value): (r: (seq<Action>, ToggleEffect))
    ensures currentUser.None? ==>
              r.0 == [ToggleRequest, ToggleError(storable(ErrorObject(NO_CURRENT_USER)))]
              && r.1 == Reject(ErrorObject(NO_CURRENT_USER))
    ensures currentUser.Some? ==> r.0 == [ToggleRequest] && r.1.UpdateProfile?
    ensures currentUser.Some? && Truthy(isFav) ==>
              r.1.favorites == AddFavorite(ExistingFavorites(currentUser.value), listingId)
    ensures currentUser.Some? && !Truthy(isFav) ==>
              r.1.favorites == RemoveFavorite(ExistingFavorites(currentUser.value), listingId)
  {
    match currentUser
    case None =>
      var err := ErrorObject(NO_CURRENT_USER);
      ([ToggleRequest, ToggleError(storable(err))], Reject(err))
    case Some(user) =>
      var existing := ExistingFavorites(user);
      var updated := if Truthy(isFav) then AddFavorite(existing, listingId)
                     else RemoveFavorite(existing, listingId);
      ([ToggleRequest], UpdateProfile(updated))
  }

  const ADD_MARKETPLACE_ENTITIES := "app/marketplaceData/ADD_MARKETPLACE_ENTITIES"

  /**
   The actions dispatched once the profile update settles. On success the
   thunk also dispatches `fetchCurrentUser`, whose promise it returns; the
   outer `catch` covers that promise too, so a failed refetch dispatches a
   toggle error after the toggle success. `refetch` is the refetch's outcome;
   the user slice's own actions are not listed, since this reducer ignores them.
   */
  function ToggleFavoriteFinish(update: Result<Value>, refetch: Result<Value>, storable: Value -> Value)
    : (r: seq<Action>)
    ensures update.Ok? ==> ToggleSuccess(update.value) in r
    ensures update.Throws? ==> r == [ToggleError(storable(update.thrown))]
    ensures (exists i :: 0 <= i < |r| && r[i].ToggleError?) <==> update.Throws? || refetch.Throws?
    ensures update.Ok? && refetch.Throws? ==> r[|r| - 1] == ToggleError(storable(refetch.thrown))
  {
    match update
    case Ok(response) =>
      var settled := [Foreign(ADD_MARKETPLACE_ENTITIES), ToggleSuccess(response)];
      (match refetch
       case Ok(_) => settled
       case Throws(e) =>
         var failed := settled + [ToggleError(storable(e))];
         assert failed[2].ToggleError?;
         failed)
    case Throws(e) =>
      var failed := [ToggleError(storable(e))];
      assert failed[0].ToggleError?;
      failed
  }

  /** Reducing a rejected toggle: request, then the stored error. */
  lemma ReduceRejectedToggle(s: FeaturedState, e: Value)
    ensures var r := ReduceAll(s, [ToggleRequest, ToggleError(e)]);
            r == s.(toggleFavInProgress := false, toggleFavError := e)
  {
    var actions := [ToggleRequest, ToggleError(e)];
    assert actions[..1] == [ToggleRequest];
    assert [ToggleRequest][..0] == [];
    assert ReduceAll(s, [ToggleRequest]) == Reduce(s, ToggleRequest);
  }

  /** Reducing a toggle whose profile update and refetch settled. */
  lemma ReduceSettledToggle(s: FeaturedState, update: Result<Value>, refetch: Result<Value>,
                            storable: Value -> Value)
    ensures var r := ReduceAll(s, [ToggleRequest] + ToggleFavoriteFinish(update, refetch, storable));
            r == s.(toggleFavInProgress := false,
                    toggleFavError := if update.Throws? then storable(update.thrown)
                                      else if refetch.Throws? then storable(refetch.thrown)
                                      else Null)
  {
    var actions := [ToggleRequest] + ToggleFavoriteFinish(update, refetch, storable);
    assert [ToggleRequest][..0] == [];
    var t := ReduceAll(s, [ToggleRequest]);
    assert t == Reduce(s, ToggleRequest);
    if update.Ok? {
      var mid := [ToggleRequest, Foreign(ADD_MARKETPLACE_ENTITIES)];
      assert mid[..1] == [ToggleRequest];
      assert ReduceAll(s, mid) == t;
      var done := mid + [ToggleSuccess(update.value)];
      assert done[..2] == mid;
      assert ReduceAll(s, done) == t.(toggleFavInProgress := false);
      if refetch.Ok? {
        assert actions == done;
      } else {
        assert actions == done + [ToggleError(storable(refetch.thrown))];
        assert actions[..3] == done;
      }
    } else {
      assert actions == [ToggleRequest, ToggleError(storable(update.thrown))];
      assert actions[..1] == [ToggleRequest];
    }
  }

  /**
   Whatever the store held, a toggle leaves no toggle in progress, records an
   error exactly when there was no user, the profile update failed or the
   refetch of the current user failed, and
   leaves the fetch half of the slice alone.
   */
  lemma ToggleFavoriteSettles(s: FeaturedState, listingId: string, isFav: Value, currentUser: Option<User>,
                              update: Result<Value>, refetch: Result<Value>, storable: Value -> Value)
    ensures var (start, effect) := ToggleFavoriteStart(listingId, isFav, currentUser, storable);
            var actions := if effect.Reject? then start else start + ToggleFavoriteFinish(update, refetch, storable);
            var r := ReduceAll(s, actions);
            && !r.toggleFavInProgress
            && r.toggleFavError == (if currentUser.None? then storable(ErrorObject(NO_CURRENT_USER))
                                    else if update.Throws? then storable(update.thrown)
                                    else if refetch.Throws? then storable(refetch.thrown)
                                    else Null)
            && r.fetchInProgress == s.fetchInProgress && r.fetchError == s.fetchError
            && r.featuredIds == s.featuredIds
  {
    if currentUser.None? {
      ReduceRejectedToggle(s, storable(ErrorObject(NO_CURRENT_USER)));
    } else {
      ReduceSettledToggle(s, update, refetch, storable);
    }
  }
}

=== FILE: js_value.dfy ===
/**
 The slice of JavaScript's value semantics the modelled code relies on:
 truthiness, optional property access (`v?.key`), own-property checks,
 object spread (`{...v}`) and string conversion (`String(v)` and template
 literals). Numbers are modelled as mathematical integers.
 */
module JsValue {

  datatype Value =
    | Undefined
    | Null
    | Bool(b: bool)
    | Num(n: int)
    | Str(s: string)
    | Arr(items: seq<Value>)
    | Obj(props: map<string, Value>)

  datatype Option<+T> = None | Some(value: T)

  /** Outcome of an evaluation that may throw: the thrown value is kept. */
  datatype Result<+T> = Ok(value: T) | Throws(thrown: Value)

  /** `v == null` (loose equality with null). */
  predicate Nullish(v: Value) {
    v.Undefined? || v.Null?
  }

  /** What `if (v)` sees. */
  predicate Truthy(v: Value) {
    match v
    case Undefined => false
    case Null => false
    case Bool(b) => b
    case Num(n) => n != 0
    case Str(s) => s != ""
    case Arr(_) => true
    case Obj(_) => true
  }

  /** `v?.key`: own properties of objects, and `length` of strings and arrays. */
  function Get(v: Value, key: string): (r: Value)
    ensures Nullish(v) ==> r == Undefined
    ensures v.Obj? && key !in v.props ==> r == Undefined
  {
    match v
    case Obj(m) => if key in m then m[key] else Undefined
    case Str(s) => if key == "length" then Num(|s|) else Undefined
    case Arr(a) => if key == "length" then Num(|a|) else Undefined
    case _ => Undefined
  }

  /** `v.hasOwnProperty(key)` for the keys the modelled code asks about. */
  predicate HasOwn(v: Value, key: string) {
    match v
    case Obj(m) => key in m
    case Str(_) => key == "length"
    case Arr(_) => key == "length"
    case _ => false
  }

  /** What reading a property of `null` or `undefined` throws; the engine's message text is not modelled. */
  const TYPE_ERROR: Value := Obj(map["name" := Str("TypeError")])

  /** `v.key`: throws on `null` and `undefined`, otherwise reads like `v?.key`. */
  function Read(v: Value, key: string): (r: Result<Value>)
    ensures r.Throws? <==> Nullish(v)
    ensures r.Throws? ==> r.thrown == TYPE_ERROR
    ensures r.Ok? ==> r.value == Get(v, key)
  {
    if Nullish(v) then Throws(TYPE_ERROR) else Ok(Get(v, key))
  }

  /** `v || {}`: the value when truthy, a fresh empty object otherwise. */
  function OrEmpty(v: Value): (r: Value)
    ensures Truthy(v) ==> r == v
    ensures !Truthy(v) ==> r == Obj(map[])
  {
    if Truthy(v) then v else Obj(map[])
  }

  /** A JS object literal built from one key. */
  function Single(key: string, v: Value): (r: Value)
    ensures r.Obj? && r.props.Keys == {key} && Get(r, key) == v
  {
    Obj(map[key := v])
  }

  /** `new Error(message)`: an object whose `message` is the given text. */
  function ErrorObject(message: string): (r: Value)
    ensures Truthy(r) && Get(r, "message") == Str(message)
  {
    Obj(map["message" := Str(message), "name" := Str("Error")])
  }

  // ---------------------------------------------------------------------
  // Decimal notation of natural numbers (array indices, block numbers)
  // ---------------------------------------------------------------------

  function DigitChar(d: nat): (c: char)
    requires d < 10
    ensures '0' <= c <= '9'
  {
    "0123456789"[d]
  }

  function DigitValue(c: char): nat {
    if '0' <= c <= '9' then (c as int - '0' as int) else 0
  }

  predicate AllDigits(s: string) {
    forall i :: 0 <= i < |s| ==> '0' <= s[i] <= '9'
  }

  /** The decimal spelling JavaScript gives a non-negative integer. */
  function NatToDecimal(n: nat): (s: string)
    ensures |s| >= 1 && AllDigits(s)
    ensures n > 0 ==> s[0] != '0'
  {
    if n < 10 then [DigitChar(n)] else NatToDecimal(n / 10) + [DigitChar(n % 10)]
  }

  /** Reads a string of digits back as a number. */
  function DecimalToNat(s: string): nat {
    if |s| == 0 then 0 else DecimalToNat(s[..|s| - 1]) * 10 + DigitValue(s[|s| - 1])
  }

  lemma {:induction false} DecimalRoundTrip(n: nat)
    ensures DecimalToNat(NatToDecimal(n)) == n
  {
    var s := NatToDecimal(n);
    if n < 10 {
      assert s[..|s| - 1] == [];
    } else {
      var p := NatToDecimal(n / 10);
      assert s == p + [DigitChar(n % 10)];
      assert s[..|s| - 1] == p;
      DecimalRoundTrip(n / 10);
    }
  }

  lemma DecimalInjective(m: nat, n: nat)
    ensures NatToDecimal(m) == NatToDecimal(n) ==> m == n
  {
    DecimalRoundTrip(m);
    DecimalRoundTrip(n);
  }

  // ---------------------------------------------------------------------
  // String conversion
  // ---------------------------------------------------------------------

  function IntToString(n: int): (s: string)
    ensures |s| >= 1
  {
    if n < 0 then "-" + NatToDecimal(-n) else NatToDecimal(n)
  }

  /** `String(v)`, which is also what a template literal `${v}` produces. */
  function ToJsString(v: Value): (s: string)
    ensures v.Str? ==> s == v.s
    ensures v.Undefined? ==> s == "undefined"
    decreases v, 1
  {
    match v
    case Undefined => "undefined"
    case Null => "null"
    case Bool(b) => if b then "true" else "false"
    case Num(n) => IntToString(n)
    case Str(s) => s
    case Arr(items) => JoinElements(v, 0)
    case Obj(_) => "[object Object]"
  }

  /** `Array.prototype.join(",")` from index `i`, as used by `String(array)`. */
  function JoinElements(v: Value, i: nat): string
    requires v.Arr? && i <= |v.items|
    decreases v, 0, |v.items| - i
  {
    if i == |v.items| then ""
    else
      var e := v.items[i];
      var head := if Nullish(e) then "" else ToJsString(e);
      if i + 1 == |v.items| then head else head + "," + JoinElements(v, i + 1)
  }

  // ---------------------------------------------------------------------
  // Object spread
  // ---------------------------------------------------------------------

  /** Index-keyed own properties of a sequence: `{0: a[0], 1: a[1], ...}`. */
  function IndexProps(items: seq<Value>): (m: map<string, Value>)
    ensures forall i :: 0 <= i < |items| ==> NatToDecimal(i) in m
    ensures forall k :: k in m ==> AllDigits(k)
  {
    if |items| == 0 then map[]
    else IndexProps(items[..|items| - 1])[NatToDecimal(|items| - 1) := items[|items| - 1]]
  }

  function Chars(s: string): seq<Value> {
    seq(|s|, i requires 0 <= i < |s| => Str([s[i]]))
  }

  /** The own enumerable properties `{...v}` copies. */
  function Spread(v: Value): (m: map<string, Value>)
    ensures v.Obj? ==> m == v.props
    ensures !v.Obj? && !v.Arr? && !v.Str? ==> m == map[]
  {
    match v
    case Obj(props) => props
    case Arr(items) => IndexProps(items)
    case Str(s) => IndexProps(Chars(s))
    case _ => map[]
  }
}

=== FILE: search_cta.dfy ===
/**
 The search call-to-action block of the page builder: which search fields it
 renders and how they align, the grid class it picks for them, and how the
 submitted form values become search-page query parameters. Date
 stringification is a parameter; routing and navigation are left out.
 */
module SearchCta {
  import opened JsValue

  // ---------------------------------------------------------------------
  // Grid class and emptiness
  // ---------------------------------------------------------------------

  /** `GRID_CONFIG`: the column count of the grid class at each index. */
  const GRID_CONFIG: seq<nat> := [1, 2, 3, 4]

  /** `getGridCount`: the column count of the grid class for `numberOfFields` fields. */
  function GetGridCount(numberOfFields: int): (columns: nat)
    ensures 1 <= numberOfFields <= 4 ==> columns == numberOfFields
    ensures !(1 <= numberOfFields <= 4) ==> columns == 1
  {
    var i := numberOfFields - 1;
    if 0 <= i < |GRID_CONFIG| then GRID_CONFIG[i] else GRID_CONFIG[0]
  }

  /** `isEmpty`: nullish, or an own `length` property that is 0. */
  function IsEmpty(v: Value): (r: bool)
    ensures r <==>
              Nullish(v) || v == Str("") || v == Arr([])
              || (v.Obj? && "length" in v.props && v.props["length"] == Num(0))
  {
    Nullish(v) || (HasOwn(v, "length") && Get(v, "length") == Num(0))
  }

  // ---------------------------------------------------------------------
  // Date ranges
  // ---------------------------------------------------------------------

  /** `x ? stringifyDateToISO8601(x) : null`. */
  function DateString(date: Value, stringify: Value -> string): Value {
    if Truthy(date) then Str(stringify(date)) else Null
  }

  /**
   `formatDateValue(dateRange, key)`: `{[key]: "start,end"}` when both dates
   are set and stringify to non-empty text, `{[key]: null}` otherwise.
   */
  function FormatDateValue(dateRange: Value, key: string, stringify: Value -> string): (r: Value)
    ensures r.Obj? && r.props.Keys == {key}
    ensures Get(r, key).Str? <==>
              Truthy(dateRange)
              && Truthy(Get(dateRange, "startDate")) && stringify(Get(dateRange, "startDate")) != ""
              && Truthy(Get(dateRange, "endDate")) && stringify(Get(dateRange, "endDate")) != ""
    ensures !Get(r, key).Str? ==> Get(r, key) == Null
  {
    var source := if Truthy(dateRange) then dateRange else Obj(map[]);
    var start := DateString(Get(source, "startDate"), stringify);
    var end := DateString(Get(source, "endDate"), stringify);
    var value := if Truthy(start) && Truthy(end) then Str(start.s + "," + end.s) else Null;
    Single(key, value)
  }

  /** Splits at the first comma; without one, everything is the first part. */
  function SplitAtComma(s: string): (r: (string, string))
    ensures ',' !in s ==> r == (s, "")
    ensures ',' in s ==> s == r.0 + "," + r.1 && ',' !in r.0
  {
    if |s| == 0 then ("", "")
    else if s[0] == ',' then ("", s[1..])
    else
      var (a, b) := SplitAtComma(s[1..]);
      assert s == [s[0]] + s[1..];
      ([s[0]] + a, b)
  }

  /**
   The two stringified dates can be read back from the parameter, since an
   ISO 8601 date holds no comma.
   */
  lemma {:induction false} DateRangeRoundTrip(start: string, end: string)
    requires ',' !in start && ',' !in end
    ensures SplitAtComma(start + "," + end) == (start, end)
    decreases |start|
  {
    var s := start + "," + end;
    if |start| == 0 {
      assert s[0] == ',' && s[1..] == end;
    } else {
      assert s[0] == start[0] && s[1..] == start[1..] + "," + end;
      DateRangeRoundTrip(start[1..], end);
      assert [start[0]] + start[1..] == start;
    }
  }

  /** The formatted dates round-trip through the `dates` parameter. */
  lemma FormattedDatesReadBack(dateRange: Value, stringify: Value -> string)
    requires Get(FormatDateValue(dateRange, "dates", stringify), "dates").Str?
    requires ',' !in stringify(Get(dateRange, "startDate")) && ',' !in stringify(Get(dateRange, "endDate"))
    ensures SplitAtComma(Get(FormatDateValue(dateRange, "dates", stringify), "dates").s)
            == (stringify(Get(dateRange, "startDate")), stringify(Get(dateRange, "endDate")))
  {
    DateRangeRoundTrip(stringify(Get(dateRange, "startDate")), stringify(Get(dateRange, "endDate")));
  }

  // ---------------------------------------------------------------------
  // Filters
  // ---------------------------------------------------------------------

  datatype FilterKey = Categories | KeywordSearch | LocationSearch | DateRange

  /** `props.searchFields`, plus the number of configured categories. */
  datatype SearchFields = SearchFields(
    categories: Value, dateRange: Value, keywordSearch: Value, locationSearch: Value, categoryCount: nat)

  /** The order `addFilters` is called with, which is also the order of the `filters` object. */
  const FILTER_ORDER: seq<FilterKey> := [Categories, KeywordSearch, LocationSearch, DateRange]

  /** `filters[key].enabled && filters[key].isValid()`. */
  predicate Active(f: SearchFields, key: FilterKey) {
    match key
    case Categories => Truthy(f.categories) && f.categoryCount > 0
    case KeywordSearch => Truthy(f.keywordSearch)
    case LocationSearch => Truthy(f.locationSearch)
    case DateRange => Truthy(f.dateRange)
  }

  /** `enabledFilters`: the active keys, in the order given. */
  function ActiveKeys(f: SearchFields, order: seq<FilterKey>): (r: seq<FilterKey>)
    ensures |r| <= |order|
    ensures forall k :: k in r <==> k in order && Active(f, k)
    decreases |order|
  {
    if |order| == 0 then []
    else
      var rest := ActiveKeys(f, order[..|order| - 1]);
      var k := order[|order| - 1];
      assert forall x :: x in order <==> x in order[..|order| - 1] || x == k by {
        assert order == order[..|order| - 1] + [k];
      }
      if Active(f, k) then rest + [k] else rest
  }

  /** Selection distributes over concatenation, so the given order is kept. */
  lemma {:induction false} ActiveKeysAppend(f: SearchFields, a: seq<FilterKey>, b: seq<FilterKey>)
    ensures ActiveKeys(f, a + b) == ActiveKeys(f, a) + ActiveKeys(f, b)
    decreases |b|
  {
    if |b| == 0 {
      assert a + b == a;
    } else {
      var b' := b[..|b| - 1];
      assert (a + b)[..|a + b| - 1] == a + b';
      ActiveKeysAppend(f, a, b');
    }
  }

  /** A rendered filter and the `alignLeft` flag it is rendered with. */
  datatype RenderedFilter = RenderedFilter(key: FilterKey, alignLeft: bool)

  /** `addFilters(order)`. */
  function AddFilters(f: SearchFields, order: seq<FilterKey>): (r: seq<RenderedFilter>)
    ensures |r| == |ActiveKeys(f, order)|
    ensures forall i :: 0 <= i < |r| ==> r[i].key == ActiveKeys(f, order)[i]
  {
    var keys := ActiveKeys(f, order);
    var total := |keys|;
    seq(total, i requires 0 <= i < total => RenderedFilter(keys[i], total == 1 || i != total - 1))
  }

  /**
   Every rendered filter aligns left except the last one, and a lone filter
   aligns left too.
   */
  lemma AlignLeftExceptLast(f: SearchFields, order: seq<FilterKey>)
    ensures var r := AddFilters(f, order);
            forall i :: 0 <= i < |r| ==> (r[i].alignLeft <==> |r| == 1 || i < |r| - 1)
  {
  }

  /** `fieldCountForGrid`: how many of the four filters are active. */
  function FieldCountForGrid(f: SearchFields): (n: nat)
    ensures n <= 4
  {
    (if Active(f, Categories) then 1 else 0) + (if Active(f, KeywordSearch) then 1 else 0)
    + (if Active(f, LocationSearch) then 1 else 0) + (if Active(f, DateRange) then 1 else 0)
  }

  /** The grid counts exactly the filters the form renders. */
  lemma GridCountsRenderedFilters(f: SearchFields)
    ensures FieldCountForGrid(f) == |AddFilters(f, FILTER_ORDER)|
  {
    var o := FILTER_ORDER;
    var c := if Active(f, Categories) then 1 else 0;
    var k := if Active(f, KeywordSearch) then 1 else 0;
    var l := if Active(f, LocationSearch) then 1 else 0;
    assert o[..3] == [Categories, KeywordSearch, LocationSearch];
    assert o[..3][..2] == [Categories, KeywordSearch];
    assert o[..3][..2][..1] == [Categories];
    assert o[..3][..2][..1][..0] == [];
    assert |ActiveKeys(f, [Categories])| == c;
    assert |ActiveKeys(f, [Categories, KeywordSearch])| == c + k;
    assert |ActiveKeys(f, [Categories, KeywordSearch, LocationSearch])| == c + k + l;
  }

  /** What the block renders: nothing, or its grid and filters. */
  datatype View = Nothing | Grid(columns: nat, filters: seq<RenderedFilter>)

  function Render(f: SearchFields): (r: View)
    ensures r.Nothing? <==> forall k :: k in FILTER_ORDER ==> !Active(f, k)
    ensures r.Grid? ==> 1 <= r.columns <= 4 && r.columns == |r.filters|
  {
    GridCountsRenderedFilters(f);
    var n := FieldCountForGrid(f);
    if n == 0 then Nothing else Grid(GetGridCount(n), AddFilters(f, FILTER_ORDER))
  }

  // ---------------------------------------------------------------------
  // Form values to query parameters
  // ---------------------------------------------------------------------

  const DATE_RANGE_KEY := "dateRange"
  const LOCATION_KEY := "location"

  /** A key copied as it is: anything but the date range and the location. */
  predicate Ordinary(key: string) {
    key != DATE_RANGE_KEY && key != LOCATION_KEY
  }

  /** `"${origin.lat},${origin.lng}"`. */
  function OriginParam(origin: Value): Value {
    Str(ToJsString(Get(origin, "lat")) + "," + ToJsString(Get(origin, "lng")))
  }

  /** The parameters an entry under `key` may write: `dates` for a date range, the place's keys for a location, else the key itself. */
  predicate Writes(key: string, k: string) {
    if key == DATE_RANGE_KEY then k == "dates"
    else if key == LOCATION_KEY then k == "bounds" || k == "address" || k == "origin"
    else k == key
  }

  /**
   What one `[key, value]` entry adds to the query parameters. An empty value
   adds nothing; a date range sets `dates` to its formatted range; a location
   with a selected place sets its bounds, its search text and, when origin
   search is in use, its origin; any other key is copied. Every parameter the
   entry does not write keeps its value.
   */
  function Contribute(params: map<string, Value>, key: string, value: Value, originInUse: bool,
                      stringify: Value -> string): (r: map<string, Value>)
    ensures IsEmpty(value) ==> r == params
    ensures Ordinary(key) && !IsEmpty(value) ==> r == params[key := value]
    ensures forall k :: k in params && !Writes(key, k) ==> k in r && r[k] == params[k]
    ensures key == DATE_RANGE_KEY && !IsEmpty(value) ==>
              var start := Get(value, "startDate");
              var end := Get(value, "endDate");
              && "dates" in r
              && (if Truthy(start) && stringify(start) != "" && Truthy(end) && stringify(end) != ""
                  then r["dates"] == Str(stringify(start) + "," + stringify(end))
                  else r["dates"] == Null)
    ensures key == LOCATION_KEY && !IsEmpty(value) ==>
              var place := Get(value, "selectedPlace");
              var origin := Get(place, "origin");
              && (!Truthy(place) ==> r == params)
              && (Truthy(place) ==>
                    && "bounds" in r && r["bounds"] == Get(place, "bounds")
                    && "address" in r && r["address"] == Get(value, "search")
                    && (originInUse && Truthy(origin) ==> "origin" in r && r["origin"] == OriginParam(origin))
                    && (!(originInUse && Truthy(origin)) ==>
                          ("origin" in r <==> "origin" in params)
                          && ("origin" in r ==> r["origin"] == params["origin"])))
    ensures forall k :: k in r && k !in params ==>
              (k == key && Ordinary(key))
              || (k == "dates" && key == DATE_RANGE_KEY)
              || ((k == "bounds" || k == "address" || k == "origin") && key == LOCATION_KEY)
    ensures "origin" in r && "origin" !in params ==> originInUse || key == "origin"
  {
    if IsEmpty(value) then params
    else if key == DATE_RANGE_KEY then
      params["dates" := Get(FormatDateValue(value, "dates", stringify), "dates")]
    else if key == LOCATION_KEY then
      var place := Get(value, "selectedPlace");
      if !Truthy(place) then params
      else
        var origin := Get(place, "origin");
        var located := params["bounds" := Get(place, "bounds")]["address" := Get(value, "search")];
        if originInUse && Truthy(origin) then located["origin" := OriginParam(origin)] else located
    else params[key := value]
  }

  /** `Object.entries(values)` of the submitted form. */
  type Entries = seq<(string, Value)>

  /**
   The query parameters `onSubmit` builds, entry by entry: besides the
   ordinary keys of the form, only `dates`, `bounds`, `address` and `origin`.
   */
  function QueryParams(entries: Entries, originInUse: bool, stringify: Value -> string): (r: map<string, Value>)
    ensures forall k :: k in r ==> Ordinary(k) || k in {"dates", "bounds", "address", "origin"}
    ensures |entries| == 0 ==> r == map[]
    decreases |entries|
  {
    if |entries| == 0 then map[]
    else
      var (key, value) := entries[|entries| - 1];
      Contribute(QueryParams(entries[..|entries| - 1], originInUse, stringify), key, value, originInUse, stringify)
  }

  /**
   Nothing else appears in the query: every parameter is an ordinary key of
   the form, `dates` from a date range, or `bounds`/`address`/`origin` from a
   location; and `origin` only when origin search is in use (or the form has
   an `origin` field of its own).
   */
  lemma {:induction false} QueryKeysComeFromForm(entries: Entries, originInUse: bool, stringify: Value -> string)
    ensures forall k :: k in QueryParams(entries, originInUse, stringify) ==>
              exists i :: 0 <= i < |entries| &&
                ((entries[i].0 == k && Ordinary(k))
                 || (k == "dates" && entries[i].0 == DATE_RANGE_KEY)
                 || ((k == "bounds" || k == "address" || k == "origin") && entries[i].0 == LOCATION_KEY))
    ensures "origin" in QueryParams(entries, originInUse, stringify) ==>
              originInUse || exists i :: 0 <= i < |entries| && entries[i].0 == "origin"
    decreases |entries|
  {
    if |entries| > 0 {
      var p := entries[..|entries| - 1];
      QueryKeysComeFromForm(p, originInUse, stringify);
      var r := QueryParams(entries, originInUse, stringify);
      var q := QueryParams(p, originInUse, stringify);
      forall k | k in r
        ensures exists i :: 0 <= i < |entries| &&
                  ((entries[i].0 == k && Ordinary(k))
                   || (k == "dates" && entries[i].0 == DATE_RANGE_KEY)
                   || ((k == "bounds" || k == "address" || k == "origin") && entries[i].0 == LOCATION_KEY))
      {
        if k in q {
          var i :| 0 <= i < |p| &&
                   ((p[i].0 == k && Ordinary(k))
                    || (k == "dates" && p[i].0 == DATE_RANGE_KEY)
                    || ((k == "bounds" || k == "address" || k == "origin") && p[i].0 == LOCATION_KEY));
          assert entries[i] == p[i];
        } else {
          assert entries[|entries| - 1].0 == entries[|entries| - 1].0;
        }
      }
      if "origin" in r && !originInUse && "origin" in q {
        var i :| 0 <= i < |p| && p[i].0 == "origin";
        assert entries[i] == p[i];
      }
    }
  }

  predicate DistinctKeys(entries: Entries) {
    forall i, j :: 0 <= i < j < |entries| ==> entries[i].0 != entries[j].0
  }

  /**
   Object entries have distinct keys, so an ordinary field that no date range
   or location writes over is copied exactly when it is not empty.
   */
  lemma {:induction false} OrdinaryFieldCopied(entries: Entries, originInUse: bool, stringify: Value -> string,
                                               i: nat)
    requires DistinctKeys(entries) && i < |entries|
    requires Ordinary(entries[i].0)
    requires entries[i].0 !in {"dates", "bounds", "address", "origin"}
    ensures var r := QueryParams(entries, originInUse, stringify);
            && (entries[i].0 in r <==> !IsEmpty(entries[i].1))
            && (entries[i].0 in r ==> r[entries[i].0] == entries[i].1)
    decreases |entries|
  {
    var p := entries[..|entries| - 1];
    var (key, value) := entries[|entries| - 1];
    var k := entries[i].0;
    if i < |entries| - 1 {
      assert p[i] == entries[i];
      OrdinaryFieldCopied(p, originInUse, stringify, i);
      assert key != k;
    } else {
      QueryKeysComeFromForm(p, originInUse, stringify);
    }
  }

  /**
   A complete date range anywhere in the form reaches the query as
   `"start,end"`, and the two dates read back from it when they hold no
   comma; no other entry may be keyed `dates`.
   */
  lemma {:induction false} CompleteDateRangeQuery(entries: Entries, originInUse: bool, stringify: Value -> string,
                                                  i: nat)
    requires DistinctKeys(entries) && i < |entries|
    requires entries[i].0 == DATE_RANGE_KEY && !IsEmpty(entries[i].1)
    requires forall j :: 0 <= j < |entries| ==> entries[j].0 != "dates"
    requires var range := entries[i].1;
             Truthy(Get(range, "startDate")) && stringify(Get(range, "startDate")) != ""
             && Truthy(Get(range, "endDate")) && stringify(Get(range, "endDate")) != ""
    ensures var range := entries[i].1;
            var r := QueryParams(entries, originInUse, stringify);
            && "dates" in r
            && r["dates"] == Str(stringify(Get(range, "startDate")) + "," + stringify(Get(range, "endDate")))
    ensures var range := entries[i].1;
            ',' !in stringify(Get(range, "startDate")) && ',' !in stringify(Get(range, "endDate")) ==>
              SplitAtComma(QueryParams(entries, originInUse, stringify)["dates"].s)
              == (stringify(Get(range, "startDate")), stringify(Get(range, "endDate")))
    decreases |entries|
  {
    var range := entries[i].1;
    var start := stringify(Get(range, "startDate"));
    var end := stringify(Get(range, "endDate"));
    var p := entries[..|entries| - 1];
    var (key, value) := entries[|entries| - 1];
    if i < |entries| - 1 {
      assert p[i] == entries[i];
      assert forall j :: 0 <= j < |p| ==> p[j] == entries[j];
      CompleteDateRangeQuery(p, originInUse, stringify, i);
      assert key != DATE_RANGE_KEY && key != "dates";
    }
    if ',' !in start && ',' !in end {
      DateRangeRoundTrip(start, end);
    }
  }

  /** A date range missing either date still sets `dates`, to `null`. */
  lemma IncompleteDateRange(range: Value, originInUse: bool, stringify: Value -> string)
    requires !IsEmpty(range)
    requires !Truthy(Get(range, "startDate")) || !Truthy(Get(range, "endDate"))
    ensures QueryParams([(DATE_RANGE_KEY, range)], originInUse, stringify) == map["dates" := Null]
  {
    assert [(DATE_RANGE_KEY, range)][..0] == [];
  }

  /**
   A location contributes only with a selected place: then its bounds and
   search text, and its origin when origin search is in use and set.
   */
  lemma LocationParams(place: Value, search: Value, location: Value, originInUse: bool,
                       stringify: Value -> string)
    requires location == Obj(map["selectedPlace" := place, "search" := search])
    ensures var r := QueryParams([(LOCATION_KEY, location)], originInUse, stringify);
            && (!Truthy(place) ==> r == map[])
            && (Truthy(place) ==>
                  && r["bounds"] == Get(place, "bounds") && r["address"] == search
                  && ("origin" in r <==> originInUse && Truthy(Get(place, "origin")))
                  && ("origin" in r ==> r["origin"] == OriginParam(Get(place, "origin"))))
  {
    assert [(LOCATION_KEY, location)][..0] == [];
  }
}

=== FILE: signup_common.dfy ===
/**
 Definitions shared by both signup forms: the marketplace roles, the initial
 `userType` chosen from the preselected type and the configured user types,
 and the "show the role-specific fields" and "submit disabled" gates.
 */
module SignupCommon {
  import opened JsValue

  // Role names as configured for the marketplace.
  const BUYER := "buyer"
  const SELLER := "seller"
  const AGENT := "agent"
  const DEALER := "dealer"
  const INSTALLER := "installer"

  /** The roles the forms branch on; any other `userType`, set or not, is `Unlisted`. */
  datatype Role = Buyer | Seller | Agent | Dealer | Installer | Unlisted

  /** Which branch a `userType` value selects (`userType === BUYER` and so on). */
  function RoleOf(userType: Value): (r: Role)
    ensures r == Buyer <==> userType == Str(BUYER)
    ensures r == Seller <==> userType == Str(SELLER)
    ensures r == Agent <==> userType == Str(AGENT)
    ensures r == Dealer <==> userType == Str(DEALER)
    ensures r == Installer <==> userType == Str(INSTALLER)
    ensures r != Unlisted ==> Truthy(userType)
  {
    if userType == Str(BUYER) then Buyer
    else if userType == Str(SELLER) then Seller
    else if userType == Str(AGENT) then Agent
    else if userType == Str(DEALER) then Dealer
    else if userType == Str(INSTALLER) then Installer
    else Unlisted
  }

  /** One entry of the marketplace's user-type configuration. */
  datatype UserTypeConfig = UserTypeConfig(userType: Value)

  /**
   `getSoleUserTypeMaybe`: the type of the only configured entry, `null` when
   the configuration is not an array (`None`) or does not hold exactly one entry.
   */
  function SoleUserType(userTypes: Option<seq<UserTypeConfig>>): (r: Value)
    ensures userTypes.Some? && |userTypes.value| == 1 ==> r == userTypes.value[0].userType
    ensures (userTypes.None? || |userTypes.value| != 1) ==> r == Null
  {
    match userTypes
    case Some(configs) => if |configs| == 1 then configs[0].userType else Null
    case None => Null
  }

  /** The form's initial `userType`: `preselectedUserType || getSoleUserTypeMaybe(userTypes)`. */
  function InitialUserType(preselected: Value, userTypes: Option<seq<UserTypeConfig>>): (r: Value)
    ensures Truthy(preselected) ==> r == preselected
    ensures !Truthy(preselected) ==> r == SoleUserType(userTypes)
  {
    if Truthy(preselected) then preselected else SoleUserType(userTypes)
  }

  /** `noUserTypes`: no type selected and none configured. */
  predicate NoUserTypes(userType: Value, userTypes: seq<UserTypeConfig>) {
    !Truthy(userType) && |userTypes| == 0
  }

  /** `showCustomUserFields`: `(userType || noUserTypes) && userFieldProps?.length > 0`. */
  predicate ShowCustomUserFields(userType: Value, userTypes: seq<UserTypeConfig>, customFieldCount: nat) {
    (Truthy(userType) || NoUserTypes(userType, userTypes)) && customFieldCount > 0
  }

  /** `submitDisabled = invalid || submitInProgress`. */
  predicate SubmitDisabled(invalid: bool, inProgress: bool) {
    invalid || inProgress
  }

  /**
   The initial `userType` is one the form was given: the preselected type, the
   type of a configured entry, or `null`.
   */
  lemma InitialUserTypeIsGiven(preselected: Value, userTypes: Option<seq<UserTypeConfig>>)
    ensures var u := InitialUserType(preselected, userTypes);
            u == preselected || u == Null
            || (userTypes.Some? && exists i :: 0 <= i < |userTypes.value| && userTypes.value[i].userType == u)
  {
    var u := InitialUserType(preselected, userTypes);
    if !Truthy(preselected) && userTypes.Some? && |userTypes.value| == 1 {
      assert userTypes.value[0].userType == u;
    }
  }

  /**
   With nothing selected, the custom-field block shows exactly when no user
   types are configured and custom fields exist; with a type selected it shows
   exactly when custom fields exist.
   */
  lemma CustomFieldsGate(userType: Value, userTypes: seq<UserTypeConfig>, customFieldCount: nat)
    ensures Truthy(userType) ==> (ShowCustomUserFields(userType, userTypes, customFieldCount) <==> customFieldCount > 0)
    ensures !Truthy(userType) ==> (ShowCustomUserFields(userType, userTypes, customFieldCount) <==> |userTypes| == 0 && customFieldCount > 0)
  {
  }
}

=== FILE: signup_form.dfy ===
/**
 The single-page signup form: which inputs it renders for a given `userType`,
 whether the role-specific block appears, and when its submit button is
 disabled. Custom-field props and the option lists come from the user-field
 configuration and are passed in as counts and key sets.
 */
module SignupFormFields {
  import opened JsValue
  import opened SignupCommon

  datatype AddressLabel = CompanyAddressLabel | HeadquarterAddressLabel

  /** The inputs and controls of the form, in render order. */
  datatype FormField =
    | Email | FirstName | LastName | Password | UserTypeSelect
    | CompanyName | HeadquarterAddress(caption: AddressLabel) | PhoneNumber
    | ServiceRegions | CrewSize | SystemExpertise | YardLocations
    | UrgencyLevel | CanWeHelp
    | ProductService | ProfileImage | CompanyWebsite | SocialMediaUrl
    | SubmitButton(disabled: bool)

  // User-field keys whose enum options feed the role-specific selects.
  const SERVICE_REGIONS := "service_regions"
  const SYSTEM_EXPERTISE := "system_expertise"
  const URGENCY_LEVEL := "urgency_level"
  const CAN_WE_HELP := "canwehelp"
  const PRODUCT_OR_SERVICES := "Productorservices"

  /** The fields every role sees first. */
  const DEFAULT_FIELDS: seq<FormField> := [Email, FirstName, LastName, Password, UserTypeSelect]

  /** The option lists a role's block maps over (`xOption.map(...)`). */
  function NeededOptions(role: Role): set<string> {
    match role
    case Installer => {SERVICE_REGIONS, SYSTEM_EXPERTISE}
    case Buyer => {URGENCY_LEVEL, CAN_WE_HELP}
    case Dealer => {PRODUCT_OR_SERVICES}
    case _ => {}
  }

  /** The role-specific block shown under the user-type selector. */
  function RoleBlock(role: Role): (r: seq<FormField>)
    ensures |r| >= 4 && r[0] == CompanyName && r[1].HeadquarterAddress?
    ensures PhoneNumber in r
  {
    // Each row lists the inputs in the order the JSX renders them; the
    // installer's crew-size input appears in two places.
    match role
    case Installer =>
      [CompanyName, HeadquarterAddress(HeadquarterAddressLabel), ServiceRegions, CrewSize,
       PhoneNumber, CrewSize, SystemExpertise]
    case Buyer =>
      [CompanyName, HeadquarterAddress(CompanyAddressLabel), PhoneNumber, YardLocations,
       UrgencyLevel, CanWeHelp]
    case Dealer =>
      [CompanyName, HeadquarterAddress(HeadquarterAddressLabel), PhoneNumber, YardLocations,
       ProductService, ProfileImage, CompanyWebsite, SocialMediaUrl]
    case _ =>
      [CompanyName, HeadquarterAddress(HeadquarterAddressLabel), PhoneNumber, YardLocations]
  }

  /**
   Which role fields each role's block holds: installers get service regions,
   system expertise and crew size (twice) but no yard locations; everyone
   else gets yard locations; buyers get the urgency and help selects; dealers
   get the product, image, website and social-media inputs.
   */
  lemma RoleBlockFields(role: Role)
    ensures var r := RoleBlock(role);
            && (role == Installer ==>
                  ServiceRegions in r && SystemExpertise in r && multiset(r)[CrewSize] == 2 && YardLocations !in r)
            && (role != Installer ==>
                  YardLocations in r && ServiceRegions !in r && SystemExpertise !in r && CrewSize !in r)
            && (UrgencyLevel in r <==> role == Buyer)
            && (CanWeHelp in r <==> role == Buyer)
            && (ProductService in r <==> role == Dealer)
            && (ProfileImage in r <==> role == Dealer)
            && (CompanyWebsite in r <==> role == Dealer)
            && (SocialMediaUrl in r <==> role == Dealer)
  {
    match role
    case Installer => InstallerBlock(); InstallerCrewSize();
    case Buyer => BuyerBlock();
    case Dealer => DealerBlock();
    case _ => PlainBlock(role);
  }

  // The role block of each role, one role at a time.

  lemma InstallerBlock()
    ensures var r := RoleBlock(Installer);
            && ServiceRegions in r && SystemExpertise in r && YardLocations !in r
            && UrgencyLevel !in r && CanWeHelp !in r
            && ProductService !in r && ProfileImage !in r && CompanyWebsite !in r && SocialMediaUrl !in r
  {
    var r := RoleBlock(Installer);
    assert r == [CompanyName, HeadquarterAddress(HeadquarterAddressLabel), ServiceRegions, CrewSize,
                 PhoneNumber, CrewSize, SystemExpertise];
    assert r[2] == ServiceRegions && r[6] == SystemExpertise;
  }

  /** The installer's crew-size input appears twice. */
  lemma InstallerCrewSize()
    ensures multiset(RoleBlock(Installer))[CrewSize] == 2
  {
    var head := [CompanyName, HeadquarterAddress(HeadquarterAddressLabel), ServiceRegions];
    var tail := [PhoneNumber];
    assert RoleBlock(Installer) == head + [CrewSize] + tail + [CrewSize] + [SystemExpertise];
    assert multiset(head)[CrewSize] == 0 && multiset(tail)[CrewSize] == 0;
  }

  lemma BuyerBlock()
    ensures var r := RoleBlock(Buyer);
            && YardLocations in r && ServiceRegions !in r && SystemExpertise !in r && CrewSize !in r
            && UrgencyLevel in r && CanWeHelp in r
            && ProductService !in r && ProfileImage !in r && CompanyWebsite !in r && SocialMediaUrl !in r
  {
    var r := RoleBlock(Buyer);
    assert r == [CompanyName, HeadquarterAddress(CompanyAddressLabel), PhoneNumber, YardLocations,
                 UrgencyLevel, CanWeHelp];
    assert r[3] == YardLocations && r[4] == UrgencyLevel && r[5] == CanWeHelp;
  }

  lemma DealerBlock()
    ensures var r := RoleBlock(Dealer);
            && YardLocations in r && ServiceRegions !in r && SystemExpertise !in r && CrewSize !in r
            && UrgencyLevel !in r && CanWeHelp !in r
            && ProductService in r && ProfileImage in r && CompanyWebsite in r && SocialMediaUrl in r
  {
    var r := RoleBlock(Dealer);
    assert r == [CompanyName, HeadquarterAddress(HeadquarterAddressLabel), PhoneNumber, YardLocations,
                 ProductService, ProfileImage, CompanyWebsite, SocialMediaUrl];
    assert r[3] == YardLocations && r[4] == ProductService && r[5] == ProfileImage;
    assert r[6] == CompanyWebsite && r[7] == SocialMediaUrl;
  }

  lemma PlainBlock(role: Role)
    requires role != Installer && role != Buyer && role != Dealer
    ensures var r := RoleBlock(role);
            && YardLocations in r && ServiceRegions !in r && SystemExpertise !in r && CrewSize !in r
            && UrgencyLevel !in r && CanWeHelp !in r
            && ProductService !in r && ProfileImage !in r && CompanyWebsite !in r && SocialMediaUrl !in r
  {
    var r := RoleBlock(role);
    assert r == [CompanyName, HeadquarterAddress(HeadquarterAddressLabel), PhoneNumber, YardLocations];
    assert r[3] == YardLocations;
  }

  /**
   Whether the upload-preview expressions throw before the form is built: a
   stored `imageId` makes the render read `this.state` where `this` is
   undefined, and a file still uploading makes the preview read
   `errorClasses` before its declaration.
   */
  predicate UploadPreviewThrows(profileImage: Value, uploadInProgress: Value) {
    Truthy(Get(profileImage, "imageId"))
    || (Truthy(Get(profileImage, "file")) && Truthy(uploadInProgress))
  }

  /**
   The rendered form, or `None` when rendering throws: in the upload-preview
   expressions, or because the block maps over an option list the user-field
   configuration does not provide. `optionKeys` holds the user-field keys
   whose first entry carries enum options.
   */
  function RenderForm(userType: Value, userTypes: seq<UserTypeConfig>, customFieldCount: nat,
                      optionKeys: set<string>, profileImage: Value, uploadInProgress: Value,
                      invalid: bool, inProgress: bool): (r: Option<seq<FormField>>)
    ensures r.None? <==>
              UploadPreviewThrows(profileImage, uploadInProgress)
              || (ShowCustomUserFields(userType, userTypes, customFieldCount)
                  && !(NeededOptions(RoleOf(userType)) <= optionKeys))
    ensures r.Some? ==>
              && |r.value| >= |DEFAULT_FIELDS| + 1
              && r.value[..|DEFAULT_FIELDS|] == DEFAULT_FIELDS
              && r.value[|r.value| - 1] == SubmitButton(SubmitDisabled(invalid, inProgress))
    ensures r.Some? ==> (CompanyName in r.value <==> ShowCustomUserFields(userType, userTypes, customFieldCount))
    ensures r.Some? && !ShowCustomUserFields(userType, userTypes, customFieldCount) ==>
              |r.value| == |DEFAULT_FIELDS| + 1
              && forall x :: x in r.value ==> x in DEFAULT_FIELDS || x.SubmitButton?
    ensures r.Some? && ShowCustomUserFields(userType, userTypes, customFieldCount) ==>
              r.value[|DEFAULT_FIELDS|..|r.value| - 1] == RoleBlock(RoleOf(userType))
  {
    var show := ShowCustomUserFields(userType, userTypes, customFieldCount);
    var role := RoleOf(userType);
    if UploadPreviewThrows(profileImage, uploadInProgress) then None
    else if show && !(NeededOptions(role) <= optionKeys) then None
    else
      var block := if show then RoleBlock(role) else [];
      Some(DEFAULT_FIELDS + block + [SubmitButton(SubmitDisabled(invalid, inProgress))])
  }

  /** A role field is rendered exactly when the block holds it, and as often. */
  lemma InRendered(block: seq<FormField>, submit: FormField, x: FormField)
    requires x !in DEFAULT_FIELDS && !x.SubmitButton? && submit.SubmitButton?
    ensures x in DEFAULT_FIELDS + block + [submit] <==> x in block
    ensures multiset(DEFAULT_FIELDS + block + [submit])[x] == multiset(block)[x]
  {
    var all := DEFAULT_FIELDS + block + [submit];
    assert multiset(all) == multiset(DEFAULT_FIELDS) + multiset(block) + multiset([submit]);
    if x in block {
      var i :| 0 <= i < |block| && block[i] == x;
      assert all[|DEFAULT_FIELDS| + i] == x;
    }
    if x in all {
      var i :| 0 <= i < |all| && all[i] == x;
      assert i >= |DEFAULT_FIELDS| && i < |DEFAULT_FIELDS| + |block|;
      assert block[i - |DEFAULT_FIELDS|] == x;
    }
  }

  // The form rendered with a role's block, one role fact at a time.

  lemma FormCrewSize(role: Role, submit: FormField)
    requires submit.SubmitButton?
    ensures multiset(DEFAULT_FIELDS + RoleBlock(role) + [submit])[CrewSize] == if role == Installer then 2 else 0
  {
    RoleBlockFields(role);
    InRendered(RoleBlock(role), submit, CrewSize);
  }

  lemma FormServiceRegions(role: Role, submit: FormField)
    requires submit.SubmitButton?
    ensures ServiceRegions in DEFAULT_FIELDS + RoleBlock(role) + [submit] <==> role == Installer
  {
    RoleBlockFields(role);
    InRendered(RoleBlock(role), submit, ServiceRegions);
  }

  lemma FormYardLocations(role: Role, submit: FormField)
    requires submit.SubmitButton?
    ensures YardLocations in DEFAULT_FIELDS + RoleBlock(role) + [submit] <==> role != Installer
  {
    RoleBlockFields(role);
    InRendered(RoleBlock(role), submit, YardLocations);
  }

  lemma FormCompanyAddress(role: Role, submit: FormField)
    requires submit.SubmitButton?
    ensures HeadquarterAddress(CompanyAddressLabel) in DEFAULT_FIELDS + RoleBlock(role) + [submit] <==> role == Buyer
  {
    CompanyAddressOnlyForBuyers(role);
    InRendered(RoleBlock(role), submit, HeadquarterAddress(CompanyAddressLabel));
  }

  lemma FormProfileImage(role: Role, submit: FormField)
    requires submit.SubmitButton?
    ensures ProfileImage in DEFAULT_FIELDS + RoleBlock(role) + [submit] <==> role == Dealer
  {
    RoleBlockFields(role);
    InRendered(RoleBlock(role), submit, ProfileImage);
  }

  /** Within the rendered form, the role decides which role fields appear. */
  lemma RenderedRoleFields(userType: Value, userTypes: seq<UserTypeConfig>, customFieldCount: nat,
                           optionKeys: set<string>, profileImage: Value, uploadInProgress: Value,
                           invalid: bool, inProgress: bool)
    requires ShowCustomUserFields(userType, userTypes, customFieldCount)
    requires NeededOptions(RoleOf(userType)) <= optionKeys
    requires !UploadPreviewThrows(profileImage, uploadInProgress)
    ensures var r := RenderForm(userType, userTypes, customFieldCount, optionKeys, profileImage, uploadInProgress,
                                invalid, inProgress);
            && r.Some?
            && multiset(r.value)[CrewSize] == (if RoleOf(userType) == Installer then 2 else 0)
            && (ServiceRegions in r.value <==> RoleOf(userType) == Installer)
            && (YardLocations in r.value <==> RoleOf(userType) != Installer)
            && (RoleOf(userType) == Buyer <==> HeadquarterAddress(CompanyAddressLabel) in r.value)
            && (RoleOf(userType) == Dealer <==> ProfileImage in r.value)
  {
    var role := RoleOf(userType);
    var submit := SubmitButton(SubmitDisabled(invalid, inProgress));
    assert RenderForm(userType, userTypes, customFieldCount, optionKeys, profileImage, uploadInProgress,
                      invalid, inProgress).value
        == DEFAULT_FIELDS + RoleBlock(role) + [submit];
    FormCrewSize(role, submit);
    FormServiceRegions(role, submit);
    FormYardLocations(role, submit);
    FormCompanyAddress(role, submit);
    FormProfileImage(role, submit);
  }

  /**
   The address input is captioned as a company address for buyers and as a
   headquarter address for every other role.
   */
  lemma CompanyAddressOnlyForBuyers(role: Role)
    ensures HeadquarterAddress(CompanyAddressLabel) in RoleBlock(role) <==> role == Buyer
    ensures HeadquarterAddress(HeadquarterAddressLabel) in RoleBlock(role) <==> role != Buyer
  {
    var r := RoleBlock(role);
    match role
    case Installer =>
      assert r == [CompanyName, HeadquarterAddress(HeadquarterAddressLabel), ServiceRegions, CrewSize,
                   PhoneNumber, CrewSize, SystemExpertise];
    case Buyer =>
      assert r == [CompanyName, HeadquarterAddress(CompanyAddressLabel), PhoneNumber, YardLocations,
                   UrgencyLevel, CanWeHelp];
    case Dealer =>
      assert r == [CompanyName, HeadquarterAddress(HeadquarterAddressLabel), PhoneNumber, YardLocations,
                   ProductService, ProfileImage, CompanyWebsite, SocialMediaUrl];
    case _ =>
      assert r == [CompanyName, HeadquarterAddress(HeadquarterAddressLabel), PhoneNumber, YardLocations];
  }
}

=== FILE: signup_wizard.dfy ===
/**
 The multi-step signup wizard: steps 1..10, a role-keyed "next"/"back"
 transition function, the per-step gate that enables the Next button, and the
 controls each step renders.
 */
module SignupWizard {
  import opened JsValue
  import opened SignupCommon

  const FIRST_STEP := 1
  const LAST_STEP := 10

  /** The form values the wizard reads, by field name. */
  type FormValues = map<string, Value>

  function Field(values: FormValues, key: string): Value {
    Get(Obj(values), key)
  }

  function UserType(values: FormValues): Value {
    Field(values, "userType")
  }

  // ---------------------------------------------------------------------
  // Transitions (`handleNext`, `handleBack`)
  // ---------------------------------------------------------------------

  /**
   `handleNext`: agents jump to the last step, sellers skip step 9, buyers
   skip step 6, everyone else moves one step on.
   */
  function Next(role: Role, step: int): (r: int)
    ensures FIRST_STEP <= step < LAST_STEP ==> step < r <= LAST_STEP
    ensures role != Agent ==> step < r <= step + 2
  {
    match role
    case Agent => LAST_STEP
    case Seller => if step == 8 then 10 else step + 1
    case Buyer => if step == 5 then 7 else step + 1
    case _ => step + 1
  }

  /** `handleBack`: the mirror image of `Next`; agents return to the first step. */
  function Back(role: Role, step: int): (r: int)
    ensures FIRST_STEP < step <= LAST_STEP ==> FIRST_STEP <= r < step
    ensures role != Agent ==> step - 2 <= r < step
  {
    match role
    case Seller => if step == 10 then 8 else step - 1
    case Buyer => if step == 7 then 5 else step - 1
    case Agent => FIRST_STEP
    case _ => step - 1
  }

  /** The steps each role visits, in order: the reference table for `Next` and `Back`. */
  function Path(role: Role): (p: seq<int>)
    ensures |p| >= 2 && p[0] == FIRST_STEP && p[|p| - 1] == LAST_STEP
  {
    match role
    case Buyer => [1, 2, 3, 4, 5, 7, 8, 9, 10]
    case Seller => [1, 2, 3, 4, 5, 6, 7, 8, 10]
    case Agent => [1, 10]
    case _ => [1, 2, 3, 4, 5, 6, 7, 8, 9, 10]
  }

  /** Along each role's path, `Next` moves to the following entry. */
  lemma NextFollowsPath(role: Role, i: int)
    requires 0 <= i < |Path(role)| - 1
    ensures Next(role, Path(role)[i]) == Path(role)[i + 1]
  {
  }

  /** Along each role's path, `Back` moves to the preceding entry: it undoes `Next`. */
  lemma BackUndoesNext(role: Role, i: int)
    requires 0 <= i < |Path(role)| - 1
    ensures Back(role, Next(role, Path(role)[i])) == Path(role)[i]
  {
    NextFollowsPath(role, i);
  }

  /** The steps a role never sees. */
  lemma SkippedSteps()
    ensures 6 !in Path(Buyer)
    ensures 9 !in Path(Seller)
    ensures forall s :: s in Path(Agent) <==> s == FIRST_STEP || s == LAST_STEP
    ensures forall s :: s in Path(Unlisted) <==> FIRST_STEP <= s <= LAST_STEP
  {
  }

  /** The step reached after pressing Next `n` times from the first step. */
  function Forward(role: Role, n: nat): int
    decreases n
  {
    if n == 0 then FIRST_STEP else Next(role, Forward(role, n - 1))
  }

  /** The step reached after pressing Back `n` times from `step`. */
  function Backward(role: Role, step: int, n: nat): int
    decreases n
  {
    if n == 0 then step else Backward(role, Back(role, step), n - 1)
  }

  /** Pressing Next repeatedly from step 1 walks the role's path. */
  lemma {:induction false} ForwardWalksPath(role: Role, n: nat)
    requires n < |Path(role)|
    ensures Forward(role, n) == Path(role)[n]
  {
    if n > 0 {
      ForwardWalksPath(role, n - 1);
      NextFollowsPath(role, n - 1);
    }
  }

  /** Pressing Back `n` times from the path's entry `i` lands on entry `i - n`. */
  lemma {:induction false} BackwardWalksPath(role: Role, i: nat, n: nat)
    requires i < |Path(role)| && n <= i
    ensures Backward(role, Path(role)[i], n) == Path(role)[i - n]
  {
    if n > 0 {
      BackUndoesNext(role, i - 1);
      NextFollowsPath(role, i - 1);
      BackwardWalksPath(role, i - 1, n - 1);
    }
  }

  /**
   Walking the whole path forward reaches the final step, and walking back the
   same number of steps returns to the first one.
   */
  lemma ForwardThenBackRoundTrip(role: Role)
    ensures Forward(role, |Path(role)| - 1) == LAST_STEP
    ensures Backward(role, Forward(role, |Path(role)| - 1), |Path(role)| - 1) == FIRST_STEP
  {
    var k := |Path(role)| - 1;
    ForwardWalksPath(role, k);
    BackwardWalksPath(role, k, k);
  }

  // ---------------------------------------------------------------------
  // Gates of the Next button
  // ---------------------------------------------------------------------

  /** `!values.pub_x || values.pub_x.length === 0`: the list is missing or empty. */
  predicate EmptyList(v: Value) {
    !Truthy(v) || Get(v, "length") == Num(0)
  }

  /** The `disabled` expression of the Next button of steps 1 to 9. */
  predicate NextDisabled(step: int, values: FormValues)
    requires FIRST_STEP <= step < LAST_STEP
  {
    var role := RoleOf(UserType(values));
    match step
    case 1 => !Truthy(UserType(values))
    case 2 => !Truthy(Get(Field(values, "location"), "selectedPlace")) || !Truthy(Field(values, "zipCode"))
    case 3 =>
      (role == Buyer && !(Truthy(Field(values, "minPrice")) && Truthy(Field(values, "maxPrice"))))
      || (role == Seller && !Truthy(Field(values, "pub_price_range")))
    case 4 =>
      (role == Seller && EmptyList(Field(values, "pub_propertyTypeSeller")))
      || (role == Buyer && EmptyList(Field(values, "pub_propertyTypeBuyer")))
    case 5 => !Truthy(Field(values, "pub_timeline"))
    case 6 =>
      !(Truthy(Field(values, "propertyAddress")) && Truthy(Field(values, "yearBuilt"))
        && Truthy(Field(values, "bathrooms")) && Truthy(Field(values, "bedroom"))
        && Truthy(Field(values, "squareFoot")))
    case 7 => !(Truthy(Field(values, "compPercentage")) || Truthy(Field(values, "compPrice")))
    case 8 =>
      (role == Buyer && !Truthy(Field(values, "pub_motivationToBuy")))
      || (role == Seller && !Truthy(Field(values, "pub_motivationToSell")))
    case 9 => !Truthy(Field(values, "pub_prequalifiedBank"))
  }

  /** What a step asks of the form values before Next is enabled. */
  datatype Requirement =
    | Filled(key: string)              // the field is truthy
    | PlaceSelected(key: string)       // the location field has a selected place
    | NonEmptyList(key: string)        // the field is a non-empty list
    | EitherFilled(a: string, b: string)

  predicate Satisfied(req: Requirement, values: FormValues) {
    match req
    case Filled(k) => Truthy(Field(values, k))
    case PlaceSelected(k) => Truthy(Get(Field(values, k), "selectedPlace"))
    case NonEmptyList(k) => !EmptyList(Field(values, k))
    case EitherFilled(a, b) => Truthy(Field(values, a)) || Truthy(Field(values, b))
  }

  predicate AllSatisfied(reqs: seq<Requirement>, values: FormValues) {
    forall i :: 0 <= i < |reqs| ==> Satisfied(reqs[i], values)
  }

  /** The requirement table: for each role and step, the fields the step needs. */
  function Requirements(role: Role, step: int): seq<Requirement> {
    match step
    case 1 => [Filled("userType")]
    case 2 => [PlaceSelected("location"), Filled("zipCode")]
    case 3 =>
      if role == Buyer then [Filled("minPrice"), Filled("maxPrice")]
      else if role == Seller then [Filled("pub_price_range")]
      else []
    case 4 =>
      if role == Buyer then [NonEmptyList("pub_propertyTypeBuyer")]
      else if role == Seller then [NonEmptyList("pub_propertyTypeSeller")]
      else []
    case 5 => [Filled("pub_timeline")]
    case 6 =>
      [Filled("propertyAddress"), Filled("yearBuilt"), Filled("bathrooms"),
       Filled("bedroom"), Filled("squareFoot")]
    case 7 => [EitherFilled("compPercentage", "compPrice")]
    case 8 =>
      if role == Buyer then [Filled("pub_motivationToBuy")]
      else if role == Seller then [Filled("pub_motivationToSell")]
      else []
    case 9 => [Filled("pub_prequalifiedBank")]
    case _ => []
  }

  /** The Next button of a step is disabled exactly when a tabled requirement is unmet. */
  lemma GateIsRequirementTable(step: int, values: FormValues)
    requires FIRST_STEP <= step < LAST_STEP
    ensures NextDisabled(step, values) <==> !AllSatisfied(Requirements(RoleOf(UserType(values)), step), values)
  {
    var reqs := Requirements(RoleOf(UserType(values)), step);
    if AllSatisfied(reqs, values) {
      forall i | 0 <= i < |reqs| ensures Satisfied(reqs[i], values) {
      }
      if |reqs| >= 1 { assert Satisfied(reqs[0], values); }
      if |reqs| >= 2 { assert Satisfied(reqs[1], values); }
      if |reqs| >= 5 {
        assert Satisfied(reqs[2], values) && Satisfied(reqs[3], values) && Satisfied(reqs[4], values);
      }
    }
  }

  /** Only steps 3, 4 and 8 ask different things of different roles. */
  lemma GatesRoleIndependentOutside348(step: int, r1: Role, r2: Role)
    requires step != 3 && step != 4 && step != 8
    ensures Requirements(r1, step) == Requirements(r2, step)
  {
  }

  /** A role other than buyer or seller is never held back at steps 3, 4 and 8. */
  lemma OtherRolesPass348(step: int, values: FormValues)
    requires step == 3 || step == 4 || step == 8
    requires RoleOf(UserType(values)) != Buyer && RoleOf(UserType(values)) != Seller
    ensures !NextDisabled(step, values)
  {
  }

  // ---------------------------------------------------------------------
  // What each step renders, and the wizard as a state machine
  // ---------------------------------------------------------------------

  /** The controls a step renders besides its inputs. */
  datatype Controls = Controls(back: bool, next: bool, submit: bool, customFields: bool, agentFields: bool)

  /** The `switch (step)` of the render: steps outside 1..10 render nothing. */
  function StepControls(step: int, role: Role): (r: Option<Controls>)
    ensures r.Some? <==> FIRST_STEP <= step <= LAST_STEP
    ensures r.Some? ==> (r.value.back <==> step != FIRST_STEP)
    ensures r.Some? ==> (r.value.next <==> step != LAST_STEP) && (r.value.submit <==> step == LAST_STEP)
    ensures r.Some? ==> (r.value.agentFields <==> step == LAST_STEP && role == Agent)
  {
    if step < FIRST_STEP || step > LAST_STEP then None
    else Some(Controls(
      back := step != 1,
      next := step != 10,
      submit := step == 10,
      customFields := step !in {1, 2, 6},
      agentFields := step == 10 && role == Agent))
  }

  /**
   The last step's submit button, carrying `disabled={submitDisabled}`: none
   on the steps that do not render it, otherwise whether it is disabled.
   */
  function SubmitButtonState(step: int, role: Role, invalid: bool, inProgress: bool): (r: Option<bool>)
    ensures r.Some? <==> StepControls(step, role).Some? && StepControls(step, role).value.submit
    ensures r.Some? <==> step == LAST_STEP
    ensures r.Some? ==> (r.value <==> invalid || inProgress)
  {
    var c := StepControls(step, role);
    if c.Some? && c.value.submit then Some(SubmitDisabled(invalid, inProgress)) else None
  }

  datatype WizardState = WizardState(step: int, values: FormValues)

  function RoleIn(st: WizardState): Role {
    RoleOf(UserType(st.values))
  }

  /** The wizard as first rendered: step 1 with the initial `userType`. */
  function Initial(preselected: Value, userTypes: Option<seq<UserTypeConfig>>): WizardState {
    WizardState(FIRST_STEP, map["userType" := InitialUserType(preselected, userTypes)])
  }

  /** A click on Next: moves only when the step renders an enabled Next button. */
  function Advance(st: WizardState): (r: WizardState)
    ensures r.values == st.values
    ensures r.step != st.step ==> FIRST_STEP <= st.step < LAST_STEP && !NextDisabled(st.step, st.values)
    ensures FIRST_STEP <= st.step < LAST_STEP && !NextDisabled(st.step, st.values) ==> st.step < r.step <= LAST_STEP
  {
    var c := StepControls(st.step, RoleIn(st));
    if c.Some? && c.value.next && !NextDisabled(st.step, st.values)
    then st.(step := Next(RoleIn(st), st.step))
    else st
  }

  /** A click on Back: always enabled where the step renders it. */
  function Retreat(st: WizardState): (r: WizardState)
    ensures r.values == st.values
    ensures FIRST_STEP < st.step <= LAST_STEP ==> FIRST_STEP <= r.step < st.step
    ensures !(FIRST_STEP < st.step <= LAST_STEP) ==> r == st
  {
    var c := StepControls(st.step, RoleIn(st));
    if c.Some? && c.value.back then st.(step := Back(RoleIn(st), st.step)) else st
  }

  /**
   The wizard's invariant: the current step is on the path of the selected
   role, and without a selected role only the first step is reachable.
   */
  ghost predicate Reachable(st: WizardState) {
    && st.step in Path(RoleIn(st))
    && (!Truthy(UserType(st.values)) ==> st.step == FIRST_STEP)
  }

  lemma InitialIsReachable(preselected: Value, userTypes: Option<seq<UserTypeConfig>>)
    ensures Reachable(Initial(preselected, userTypes))
  {
  }

  lemma PathIndex(role: Role, step: int) returns (i: nat)
    requires step in Path(role)
    ensures i < |Path(role)| && Path(role)[i] == step
  {
    var p := Path(role);
    i :| 0 <= i < |p| && p[i] == step;
  }

  /** Next keeps the wizard on the role's path. */
  lemma AdvanceKeepsReachable(st: WizardState)
    requires Reachable(st)
    ensures Reachable(Advance(st))
  {
    var role := RoleIn(st);
    var i := PathIndex(role, st.step);
    if Advance(st).step != st.step {
      assert st.step != LAST_STEP;
      assert i < |Path(role)| - 1;
      NextFollowsPath(role, i);
    }
  }

  /** Back keeps the wizard on the role's path. */
  lemma RetreatKeepsReachable(st: WizardState)
    requires Reachable(st)
    ensures Reachable(Retreat(st))
  {
    var role := RoleIn(st);
    var i := PathIndex(role, st.step);
    if i > 0 {
      BackUndoesNext(role, i - 1);
      NextFollowsPath(role, i - 1);
    }
  }

  /** Without a selected role the Next button of step 1 stays disabled. */
  lemma NoRoleStaysOnFirstStep(values: FormValues)
    requires !Truthy(UserType(values))
    ensures Advance(WizardState(FIRST_STEP, values)).step == FIRST_STEP
  {
  }

  function AdvanceN(st: WizardState, n: nat): WizardState
    decreases n
  {
    if n == 0 then st else AdvanceN(Advance(st), n - 1)
  }

  function RetreatN(st: WizardState, n: nat): WizardState
    decreases n
  {
    if n == 0 then st else RetreatN(Retreat(st), n - 1)
  }

  /** Every gate on the role's path (before the last step) passes. */
  ghost predicate GatesPassAlongPath(values: FormValues) {
    var p := Path(RoleOf(UserType(values)));
    forall i :: 0 <= i < |p| - 1 ==> AllSatisfied(Requirements(RoleOf(UserType(values)), p[i]), values)
  }

  lemma {:induction false} AdvanceNWalksPath(values: FormValues, n: nat)
    requires GatesPassAlongPath(values)
    requires n < |Path(RoleOf(UserType(values)))|
    ensures AdvanceN(WizardState(FIRST_STEP, values), n) == WizardState(Path(RoleOf(UserType(values)))[n], values)
  {
    var role := RoleOf(UserType(values));
    var p := Path(role);
    if n > 0 {
      AdvanceNWalksPath(values, n - 1);
      AdvanceNSplit(WizardState(FIRST_STEP, values), n - 1);
      GateIsRequirementTable(p[n - 1], values);
      NextFollowsPath(role, n - 1);
    }
  }

  lemma {:induction false} AdvanceNSplit(st: WizardState, n: nat)
    ensures AdvanceN(st, n + 1) == Advance(AdvanceN(st, n))
    decreases n
  {
    if n > 0 {
      AdvanceNSplit(Advance(st), n - 1);
    }
  }

  lemma {:induction false} RetreatNWalksPath(values: FormValues, i: nat, n: nat)
    requires i < |Path(RoleOf(UserType(values)))| && n <= i
    ensures RetreatN(WizardState(Path(RoleOf(UserType(values)))[i], values), n)
            == WizardState(Path(RoleOf(UserType(values)))[i - n], values)
  {
    var role := RoleOf(UserType(values));
    if n > 0 {
      BackUndoesNext(role, i - 1);
      NextFollowsPath(role, i - 1);
      RetreatNWalksPath(values, i - 1, n - 1);
    }
  }

  /**
   When every gate on the way passes, clicking Next through the whole path
   reaches the final step, and clicking Back as often returns to step 1 with
   the form values untouched.
   */
  lemma FullWalkRoundTrip(values: FormValues)
    requires GatesPassAlongPath(values)
    ensures var k := |Path(RoleOf(UserType(values)))| - 1;
            && AdvanceN(WizardState(FIRST_STEP, values), k) == WizardState(LAST_STEP, values)
            && RetreatN(AdvanceN(WizardState(FIRST_STEP, values), k), k) == WizardState(FIRST_STEP, values)
  {
    var k := |Path(RoleOf(UserType(values)))| - 1;
    AdvanceNWalksPath(values, k);
    RetreatNWalksPath(values, k, k);
  }
}

=== FILE: topbar_desktop.dfy ===
/**
 The desktop top bar: which links and menus it shows before and after the
 client has mounted, for signed-in and anonymous visitors, which profile-menu
 entry is marked as the current page, and when the inbox link carries a
 notification dot. Class names, messages and the search form itself are left
 out; `ACCOUNT_SETTINGS_PAGES` comes from the route configuration and is a
 parameter.
 */
module TopbarDesktop {
  import opened JsValue

  /** The props the bar's decisions depend on, and the `mounted` state. */
  datatype TopbarProps = TopbarProps(
    isAuthenticated: Value,
    mounted: bool,
    notificationCount: Option<int>,
    currentPage: Value,
    showCreateListingsLink: Value,
    showSearchForm: Value,
    customLinks: Value)

  /** One entry of a drop-down menu. */
  datatype MenuEntry = PageEntry(page: string, current: bool) | Logout | Blank

  /** The bar's children, in render order. */
  datatype TopbarItem =
    | Logo
    | SearchForm(takeAvailableSpace: bool)
    | CustomLinks(hasClientSideContentReady: bool)
    | InboxLink(notificationDot: bool)
    | CreateListingLink
    | SignupLink
    | ProfileMenu(entries: seq<MenuEntry>)
    | NotLoggedInMenu(entries: seq<MenuEntry>)

  const ACCOUNT_SETTINGS_PAGE := "AccountSettingsPage"
  const MANAGE_LISTINGS_PAGE := "ManageListingsPage"
  const PROFILE_SETTINGS_PAGE := "ProfileSettingsPage"
  const NEW_LISTING_PAGE := "NewListingPage"

  /** `authenticatedOnClientSide = mounted && isAuthenticated`. */
  predicate AuthenticatedOnClientSide(p: TopbarProps) {
    p.mounted && Truthy(p.isAuthenticated)
  }

  /** `isAuthenticatedOrJustHydrated = isAuthenticated || !mounted`. */
  predicate AuthenticatedOrJustHydrated(p: TopbarProps) {
    Truthy(p.isAuthenticated) || !p.mounted
  }

  /** The inbox link's dot: `notificationCount > 0`, the count defaulting to 0. */
  function NotificationDot(count: Option<int>): (dot: bool)
    ensures dot <==> count.Some? && count.value > 0
  {
    var n := match count case Some(c) => c case None => 0;
    n > 0
  }

  /** `currentPageClass(page)` is set: the page is current, or it is the account settings entry and the current page is one of its sub-pages. */
  predicate IsCurrent(page: string, currentPage: Value, accountSettingsPages: seq<string>) {
    currentPage == Str(page)
    || (page == ACCOUNT_SETTINGS_PAGE && exists i :: 0 <= i < |accountSettingsPages| && Str(accountSettingsPages[i]) == currentPage)
  }

  /** The profile menu's entries. */
  function ProfileMenuEntries(p: TopbarProps, accountSettingsPages: seq<string>): (r: seq<MenuEntry>)
    ensures |r| == if Truthy(p.showCreateListingsLink) then 4 else 3
    ensures r[|r| - 1] == Logout
    ensures r[|r| - 3] == PageEntry(PROFILE_SETTINGS_PAGE, IsCurrent(PROFILE_SETTINGS_PAGE, p.currentPage, accountSettingsPages))
    ensures r[|r| - 2] == PageEntry(ACCOUNT_SETTINGS_PAGE, IsCurrent(ACCOUNT_SETTINGS_PAGE, p.currentPage, accountSettingsPages))
    ensures Truthy(p.showCreateListingsLink) ==>
              r[0] == PageEntry(MANAGE_LISTINGS_PAGE, IsCurrent(MANAGE_LISTINGS_PAGE, p.currentPage, accountSettingsPages))
    ensures forall i :: 0 <= i < |r| && r[i].PageEntry? ==>
              r[i].current == IsCurrent(r[i].page, p.currentPage, accountSettingsPages)
    ensures PageEntry(MANAGE_LISTINGS_PAGE, IsCurrent(MANAGE_LISTINGS_PAGE, p.currentPage, accountSettingsPages)) in r
            <==> Truthy(p.showCreateListingsLink)
  {
    var entry := page => PageEntry(page, IsCurrent(page, p.currentPage, accountSettingsPages));
    var manage := if Truthy(p.showCreateListingsLink) then [entry(MANAGE_LISTINGS_PAGE)] else [];
    manage + [entry(PROFILE_SETTINGS_PAGE), entry(ACCOUNT_SETTINGS_PAGE), Logout]
  }

  /**
   The anonymous menu's entries. It is rendered without a `currentPage`, so
   its new-listing entry is never marked current.
   */
  function NotLoggedInEntries(accountSettingsPages: seq<string>): (r: seq<MenuEntry>)
    ensures forall i :: 0 <= i < |r| ==> !(r[i].PageEntry? && r[i].current)
  {
    [PageEntry(NEW_LISTING_PAGE, IsCurrent(NEW_LISTING_PAGE, Undefined, accountSettingsPages)), Blank]
  }

  /** `giveSpaceForSearch = customLinks == null || customLinks?.length === 0`. */
  predicate GiveSpaceForSearch(customLinks: Value) {
    Nullish(customLinks) || Get(customLinks, "length") == Num(0)
  }

  /** The bar's children. */
  function View(p: TopbarProps, accountSettingsPages: seq<string>): (r: seq<TopbarItem>)
    ensures |r| >= 4 && r[0] == Logo && CreateListingLink in r
  {
    var onClient := AuthenticatedOnClientSide(p);
    var justHydrated := AuthenticatedOrJustHydrated(p);
    var search := if Truthy(p.showSearchForm) then SearchForm(GiveSpaceForSearch(p.customLinks))
                  else CustomLinks(onClient || !justHydrated);
    var inbox := if onClient then [InboxLink(NotificationDot(p.notificationCount))] else [];
    var signup := if justHydrated then [] else [SignupLink];
    var menu := if onClient then ProfileMenu(ProfileMenuEntries(p, accountSettingsPages))
                else NotLoggedInMenu(NotLoggedInEntries(accountSettingsPages));
    [Logo, search] + inbox + [CreateListingLink] + signup + [menu]
  }

  /**
   What each visitor sees: the inbox link and profile menu exactly when the
   client has mounted and the visitor is signed in, the anonymous menu
   otherwise, and the signup link exactly when the client has mounted and the
   visitor is anonymous.
   */
  lemma VisibilityTable(p: TopbarProps, pages: seq<string>)
    ensures var r := View(p, pages);
            && ((exists i :: 0 <= i < |r| && r[i].InboxLink?) <==> p.mounted && Truthy(p.isAuthenticated))
            && ((exists i :: 0 <= i < |r| && r[i].ProfileMenu?) <==> p.mounted && Truthy(p.isAuthenticated))
            && ((exists i :: 0 <= i < |r| && r[i].NotLoggedInMenu?) <==> !(p.mounted && Truthy(p.isAuthenticated)))
            && (SignupLink in r <==> p.mounted && !Truthy(p.isAuthenticated))
  {
    var r := View(p, pages);
    var k := |r| - 1;
    assert r[k].ProfileMenu? || r[k].NotLoggedInMenu?;
    if p.mounted && Truthy(p.isAuthenticated) {
      assert r[2].InboxLink?;
    } else {
      assert forall i :: 0 <= i < |r| ==> !r[i].InboxLink? && !r[i].ProfileMenu?;
    }
    if SignupLink in r {
      var i :| 0 <= i < |r| && r[i] == SignupLink;
    }
  }

  /** The custom links are told the client-side content is ready exactly when the client has mounted. */
  lemma ClientSideContentReadyIsMounted(p: TopbarProps)
    ensures (AuthenticatedOnClientSide(p) || !AuthenticatedOrJustHydrated(p)) <==> p.mounted
  {
  }

  /**
   The slot after the logo: the search form when it is enabled, taking the
   free space exactly when there are no custom links (none given, or an empty
   list); otherwise the custom links, told the content is ready once mounted.
   */
  lemma SearchSlot(p: TopbarProps, pages: seq<string>)
    ensures Truthy(p.showSearchForm) ==>
              View(p, pages)[1] == SearchForm(Nullish(p.customLinks) || Get(p.customLinks, "length") == Num(0))
    ensures !Truthy(p.showSearchForm) ==> View(p, pages)[1] == CustomLinks(p.mounted)
  {
    ClientSideContentReadyIsMounted(p);
  }

  /**
   Whatever the custom links receive, the server render and the first client
   render agree: before mounting, no inbox link, no signup link and the
   anonymous menu.
   */
  lemma FirstRenderIsNeutral(p: TopbarProps, pages: seq<string>)
    requires !p.mounted
    ensures var r := View(p, pages);
            r == [Logo, r[1], CreateListingLink, NotLoggedInMenu(NotLoggedInEntries(pages))]
  {
  }

  /** `currentPageClass` marks a page exactly when it is current, or it is the account settings entry and one of its sub-pages is current. */
  lemma CurrentMeansPage(page: string, currentPage: Value, pages: seq<string>)
    ensures IsCurrent(page, currentPage, pages)
            <==> currentPage == Str(page) || (page == ACCOUNT_SETTINGS_PAGE && currentPage.Str? && currentPage.s in pages)
  {
    if page == ACCOUNT_SETTINGS_PAGE && currentPage.Str? && currentPage.s in pages {
      var k :| 0 <= k < |pages| && pages[k] == currentPage.s;
      assert Str(pages[k]) == currentPage;
    }
  }

  /**
   When the account-settings sub-pages do not include the other two menu
   pages, at most one profile-menu entry is marked current.
   */
  lemma AtMostOneCurrentEntry(p: TopbarProps, pages: seq<string>)
    requires MANAGE_LISTINGS_PAGE !in pages && PROFILE_SETTINGS_PAGE !in pages
    ensures var r := ProfileMenuEntries(p, pages);
            forall i, j :: 0 <= i < j < |r| && r[i].PageEntry? && r[j].PageEntry? ==> !(r[i].current && r[j].current)
  {
    CurrentMeansPage(MANAGE_LISTINGS_PAGE, p.currentPage, pages);
    CurrentMeansPage(PROFILE_SETTINGS_PAGE, p.currentPage, pages);
    CurrentMeansPage(ACCOUNT_SETTINGS_PAGE, p.currentPage, pages);
  }
}

=== FILE: user_exists.dfy ===
/**
 The duplicate-account check behind the signup flow: looks a user up by e-mail
 through the integration SDK and answers whether the account exists. The SDK's
 `users.show` is a parameter returning the response or the error it rejects with.
 */
module UserExists {
  import opened JsValue

  /** What the async handler leads to: a response, or a rejection nothing answers. */
  datatype Outcome =
    | Respond(status: int, body: Value)
    | Unanswered(thrown: Value)

  const USER_EXISTS := "User already exists"
  const USER_MISSING := "User does not exist"
  const CHECK_FAILED := "Failed to check user existence"
  const INTERNAL_ERROR := "Internal server error"

  /** `{exists, message}` with the message that matches the flag. */
  function ExistsBody(found: bool): (r: Value)
    ensures Get(r, "exists") == Bool(found)
    ensures Get(r, "message") == Str(if found then USER_EXISTS else USER_MISSING)
  {
    Obj(map["exists" := Bool(found), "message" := Str(if found then USER_EXISTS else USER_MISSING)])
  }

  const FAILURE_BODY: Value := Obj(map["error" := Str(CHECK_FAILED), "message" := Str(INTERNAL_ERROR)])

  /** `response.data.data && response.data.data.id ? true : false`; throws when `response` or `response.data` is missing. */
  function UserFound(response: Value): (r: Result<bool>)
    ensures r.Throws? <==> Nullish(response) || Nullish(Get(response, "data"))
    ensures r.Ok? ==> (r.value <==> Truthy(Get(Get(Get(response, "data"), "data"), "id")))
  {
    match Read(response, "data")
    case Throws(e) => Throws(e)
    case Ok(data) =>
      match Read(data, "data")
      case Throws(e) => Throws(e)
      case Ok(user) => Ok(Truthy(user) && Truthy(Get(user, "id")))
  }

  /** The `catch` branch: a 404 means "no such user", anything else is a failure. */
  function OnError(error: Value): (r: Outcome)
    ensures Nullish(error) ==> r == Unanswered(TYPE_ERROR)
    ensures !Nullish(error) && Get(error, "status") == Num(404) ==> r == Respond(200, ExistsBody(false))
    ensures !Nullish(error) && Get(error, "status") != Num(404) ==> r == Respond(500, FAILURE_BODY)
  {
    match Read(error, "status")
    case Throws(e) => Unanswered(e)
    case Ok(status) => if status == Num(404) then Respond(200, ExistsBody(false)) else Respond(500, FAILURE_BODY)
  }

  /**
   `checkUserAlreadyExist`. Reading `req.body.email` happens before the `try`,
   so a request without a body is never answered.
   */
  function CheckUserAlreadyExist(body: Value, show: Value -> Result<Value>): (r: Outcome)
    ensures Nullish(body) ==> r == Unanswered(TYPE_ERROR)
    ensures r.Unanswered? ==> r.thrown == TYPE_ERROR
    ensures r.Respond? ==> r.status == 200 || r == Respond(500, FAILURE_BODY)
    ensures r.Respond? && r.status == 200 ==> r.body == ExistsBody(Get(r.body, "exists") == Bool(true))
  {
    match Read(body, "email")
    case Throws(e) => Unanswered(e)
    case Ok(email) =>
      var lookedUp := match show(Single("email", email))
                      case Ok(response) => UserFound(response)
                      case Throws(e) => Throws(e);
      match lookedUp
      case Ok(found) => Respond(200, ExistsBody(found))
      case Throws(error) => OnError(error)
  }

  /** The SDK answer for the looked-up e-mail. */
  function ShowFor(body: Value, show: Value -> Result<Value>): Result<Value>
  {
    show(Single("email", Get(body, "email")))
  }

  /**
   The handler's answer for each lookup outcome: a user record with an id is
   "exists", a response without one is "does not exist", a 404 is "does not
   exist" too, and any other failure (including a malformed response) is a 500.
   */
  lemma OutcomeByLookup(body: Value, show: Value -> Result<Value>)
    ensures Nullish(body) ==> CheckUserAlreadyExist(body, show) == Unanswered(TYPE_ERROR)
    ensures !Nullish(body) && ShowFor(body, show).Ok? && UserFound(ShowFor(body, show).value).Ok? ==>
              CheckUserAlreadyExist(body, show)
              == Respond(200, ExistsBody(Truthy(Get(Get(Get(ShowFor(body, show).value, "data"), "data"), "id"))))
    ensures !Nullish(body) && ShowFor(body, show).Ok? && UserFound(ShowFor(body, show).value).Throws? ==>
              CheckUserAlreadyExist(body, show) == Respond(500, FAILURE_BODY)
    ensures !Nullish(body) && ShowFor(body, show).Throws? ==>
              CheckUserAlreadyExist(body, show) == OnError(ShowFor(body, show).thrown)
  {
  }

  /**
   Every answer is a 200 whose `exists` flag is a boolean that the message
   agrees with, or a 500 carrying the failure message.
   */
  lemma AnswersAgree(body: Value, show: Value -> Result<Value>)
    ensures var r := CheckUserAlreadyExist(body, show);
            r.Respond? ==>
              (r.status == 200 || r.status == 500)
              && (r.status == 200 ==>
                    Get(r.body, "exists").Bool?
                    && (Get(r.body, "message") == Str(USER_EXISTS) <==> Get(r.body, "exists") == Bool(true)))
              && (r.status == 500 ==> r.body == FAILURE_BODY)
  {
  }
}
